=== FILE: README.md ===
# LokDhaba visualisation core in Dafny

This project models the pure logic of LokDhaba's `DataVizWrapper` component and proves properties about it. The component picks a map or chart for an Indian election data set. For a map, it decides four things:

- which field of each constituency record is shown;
- how each record is coloured (from a palette, by threshold bands, or by a gradient);
- which legend is listed next to the map, and in what order;
- in the "change" view, the bounds of the diverging colour scale.

For a chart, it decides which chart component is drawn and which overlay options a bar chart offers.

The modules follow the source's structure:

- `Hex` and `Color`: the `hex` helper, `getColorFromRatio`, `getColorForContinuous` and `getColorForContinuousNormalized`. Colours are channel-wise interpolations between two six-digit hex colours.
- `Values`: JavaScript record values (`undefined`, `null`, numbers, strings), truthiness, and the number coercions the comparisons use.
- `Palette`: `getLegendColorFromPalette`, the first-match palette lookup.
- `Legends` and `Categorical`: the counting object, emitting a legend in a fixed key order, and `getSortedLegendFromValue`. That function counts a categorical field and sorts the counts with a stable descending sort.
- `Threshold`: the banded maps for candidate counts, party positions and NOTA shares. It holds the map colour function, the legend loop, the key-order emission and the swatch function, each written as its if-chain stands in the source. Each chain is proved against a separate interval definition of the bands.
- `ChangeMap`: the change-view scan for the extremes of the change field, and the resulting diverging colours.
- `Display` and `Charts`: the display strings, the overlay filter of bar charts, and the chart table.
- `Maps`: the map table, and the composition of the pieces into what the map branch hands to the map component.

The model follows the code's `Math.ceil` when it interpolates a channel, not plain rounding. `Color.CeilExample` shows the effect: a tenth of the way from `ffffff` to `0570b0` is `#e6f1f8`, where rounding to nearest would give `#e6f1f7`.

Two behaviours of the source are modelled as written:

- On the candidate-count map, the swatches of "5-15" and ">15" are swapped relative to the map colours (`Threshold.CandidateSwatchesSwapped`, `Maps.CandidateSwatchesDisagree`).
- The candidate-count and NOTA legend loops have no falsy guard. So `0` and `null` are counted in their lowest band although the map draws them transparent (`Threshold.ZeroCountedButTransparent`). The party-position loop tests for 1, 2, 3 and above 3, so `0` and `null` fall in no band there.

## Model

| member | source | states |
|---|---|---|
| Hex.HexByte | lokdhaba_js/src/Components/Shared/DataVizWrapper.js:30-36 | a channel in 0..255 becomes two lowercase hex digits that parse back to it; 256 becomes "ff", which parses to 255; a negative channel gets a '-' sign and one above 256 gets three or more digits |
| Hex.ToHexNatLength | lokdhaba_js/src/Components/Shared/DataVizWrapper.js:34-35 | `toString(16)` gives one digit exactly below 16 and two exactly in 16..255, so the '0' padding yields two digits exactly for bytes |
| Hex.PairRoundTrip | lokdhaba_js/src/Components/Shared/DataVizWrapper.js:38-42 | formatting a parsed two-digit hex pair gives back the pair in lower case |
| Color.GetColorFromRatio | lokdhaba_js/src/Components/Shared/DataVizWrapper.js:27-45 | for a ratio in [0, 1] the result is a '#'-prefixed six-digit colour; each of its channels is the least integer at or above `max * ratio + min * (1 - ratio)` of the endpoints' channels, so it lies between them; ratio 0 gives the min colour and ratio 1 the max colour |
| Color.MixBetween | lokdhaba_js/src/Components/Shared/DataVizWrapper.js:38-40 | a ceiled channel mix with a ratio in [0, 1] lies between the two channel values |
| Color.MixEnds | lokdhaba_js/src/Components/Shared/DataVizWrapper.js:38-40 | the channel mix at ratio 0 is the min colour and at ratio 1 the max colour |
| Color.BlendBetween | lokdhaba_js/src/Components/Shared/DataVizWrapper.js:38-40 | blending two byte colours with a ratio in [0, 1] gives a byte colour between them |
| Color.EncodeDecode | lokdhaba_js/src/Components/Shared/DataVizWrapper.js:42-44 | encoding a byte colour gives a well-formed colour string that decodes back to the same channels |
| Color.EncodeParsed | lokdhaba_js/src/Components/Shared/DataVizWrapper.js:38-44 | re-encoding a parsed colour gives the colour lower-cased with a '#' |
| Color.NotDefault | lokdhaba_js/src/Components/Shared/DataVizWrapper.js:10-45 | an interpolated colour is never the transparent default, so the default always means "no colour" |
| Color.GetColorForContinuous | lokdhaba_js/src/Components/Shared/DataVizWrapper.js:47-52 | a falsy value, and only a falsy value, gets the transparent default; a truthy value is shaded at ratio value/100, so a percentage in (0, 100] gets each channel rounded up from the mix at that ratio, between the endpoints, and 100 gives the max colour |
| Color.CeilExample | lokdhaba_js/src/Components/Shared/DataVizWrapper.js:38-50 | 10 on the white-to-"0570b0" scale is "#e6f1f8": each channel is rounded up, so the blue channel's 247.1 becomes 248 |
| Color.GetColorForContinuousNormalized | lokdhaba_js/src/Components/Shared/DataVizWrapper.js:54-68 | a falsy value gets the no-data colour "#33ccff"; a positive value is the rounded-up mix from white to the max colour at ratio `val/max`; a negative value is the rounded-up mix from the min colour to white at ratio `(val-min)/(-min)`; the maximum (if positive) gives the max colour and the minimum (if negative) the min colour |
| Color.UnitRatio | lokdhaba_js/src/Components/Shared/DataVizWrapper.js:59-66 | the normalised ratios `val/max` and `(val-min)/(-min)` lie in [0, 1] for values within the bounds, with 0 and 1 at the ends |
| Palette.GetLegendColorFromPalette | lokdhaba_js/src/Components/Shared/DataVizWrapper.js:70-81 | the colour of the first entry whose field equals the value (strictly); the transparent default when no entry matches; never a colour outside the palette |
| Palette.LaterEntriesShadowed | lokdhaba_js/src/Components/Shared/DataVizWrapper.js:72-77 | entries after a matching one are never consulted (the loop breaks) |
| Legends.Emit | lokdhaba_js/src/Components/Shared/DataVizWrapper.js:171-178 | the legend lists, in the fixed key order, exactly the keys with a non-zero count, each with its count; its total is the sum of the counts |
| Legends.EmitDistinct | lokdhaba_js/src/Components/Shared/DataVizWrapper.js:171-178 | emitting distinct keys gives a legend without repeated keys, all drawn from the key list |
| Legends.SumOverBump | lokdhaba_js/src/Components/Shared/DataVizWrapper.js:160-168 | one increment of the counting object raises the sum over distinct keys by one exactly when the key is among them |
| Legends.Insert | lokdhaba_js/src/Components/Shared/DataVizWrapper.js:93-95 | inserting a pair into a non-increasing legend keeps it non-increasing and adds exactly that pair |
| Legends.InsertKeys | lokdhaba_js/src/Components/Shared/DataVizWrapper.js:93-95 | insertion adds the pair's key to the legend's keys |
| Legends.InsertTotal | lokdhaba_js/src/Components/Shared/DataVizWrapper.js:93-95 | insertion adds the pair's count to the legend's total |
| Legends.SortByCountDesc | lokdhaba_js/src/Components/Shared/DataVizWrapper.js:93-95 | the sorted legend's counts never increase, and it is a permutation of the input: same pairs, same keys, same total |
| Legends.SortStable | lokdhaba_js/src/Components/Shared/DataVizWrapper.js:93-95 | the sort is stable: the pairs of any one count keep their input order |
| Legends.InsertWithCount | lokdhaba_js/src/Components/Shared/DataVizWrapper.js:93-95 | inserting a pair leaves the order of the pairs of every count unchanged, the new pair coming first among its own count |
| Legends.SortTiesRanked | lokdhaba_js/src/Components/Shared/DataVizWrapper.js:93-95 | sorting a legend whose keys increase in some ranking leaves every run of equal counts in that ranking |
| Legends.InsertTiesRanked | lokdhaba_js/src/Components/Shared/DataVizWrapper.js:93-95 | inserting a pair ranked ahead of all pairs present keeps equal counts in rank order |
| Legends.EmitKeys | lokdhaba_js/src/Components/Shared/DataVizWrapper.js:96-100 | copying keys that all hold a count lists each of them once, in the given order |
| Legends.SortKeepsDistinct | lokdhaba_js/src/Components/Shared/DataVizWrapper.js:93-100 | sorting by count keeps legend keys distinct |
| Categorical.TallyValid | lokdhaba_js/src/Components/Shared/DataVizWrapper.js:84-91 | the counting object's keys are distinct, enabled, and have non-zero counts |
| Categorical.TallyOrder | lokdhaba_js/src/Components/Shared/DataVizWrapper.js:86-91 | the counting object lists its keys in the order their values first occur in the column |
| Categorical.TiesInFirstOccurrence | lokdhaba_js/src/Components/Shared/DataVizWrapper.js:83-103 | in the final legend, buckets with equal counts are listed in the order their values first occur in the column |
| Categorical.FirstIndex | lokdhaba_js/src/Components/Shared/DataVizWrapper.js:86-89 | the position of a value's first record: that record holds it and no earlier one does |
| Categorical.TallyCovers | lokdhaba_js/src/Components/Shared/DataVizWrapper.js:86-91 | every enabled value of the column becomes a key |
| Categorical.TallyCounts | lokdhaba_js/src/Components/Shared/DataVizWrapper.js:86-91 | every key's count is the number of records holding that value |
| Categorical.TallySum | lokdhaba_js/src/Components/Shared/DataVizWrapper.js:86-91 | the counts sum to the number of records whose value is enabled |
| Categorical.GetSortedLegendFromValue | lokdhaba_js/src/Components/Shared/DataVizWrapper.js:83-103 | it throws exactly when a record's value is missing (`toString` on undefined or null); otherwise its entries are exactly the enabled values present, each once, with exact counts, non-increasing, totalling the enabled records, with ties in first-occurrence order |
| Categorical.SortedLegendFacts | lokdhaba_js/src/Components/Shared/DataVizWrapper.js:83-103 | the counting pass followed by the stable descending sort meets the categorical legend's promise |
| Threshold.Keys | lokdhaba_js/src/Components/Shared/DataVizWrapper.js:171 | each banded map's fixed legend order has no repeated key |
| Threshold.Band | lokdhaba_js/src/Components/Shared/DataVizWrapper.js:161-168 | the interval definition of the bands: every candidate count and NOTA share has a band, and a position has one exactly when it is 1, 2, 3 or above 3 |
| Threshold.LegendBand | lokdhaba_js/src/Components/Shared/DataVizWrapper.js:160-169 | the legend loop's if-chain (and the ones at lines 264-275 and 333-344) increments exactly the enabled band of the value's number, with `null` as 0 and `undefined` as no number |
| Threshold.MapColor | lokdhaba_js/src/Components/Shared/DataVizWrapper.js:144-157 | the map's switch (and the ones at lines 245-260 and 314-329) leaves falsy values transparent, and gives any other value its enabled band's colour, or the default when its band is disabled |
| Threshold.LegendColor | lokdhaba_js/src/Components/Shared/DataVizWrapper.js:180-186 | the swatch of a key outside the band list is the fallback "FFFFFF00" (no '#') |
| Threshold.BandCountsLookup | lokdhaba_js/src/Components/Shared/DataVizWrapper.js:158-169 | after the loop each band's count is the number of records the chain puts in it |
| Threshold.BandCountsSum | lokdhaba_js/src/Components/Shared/DataVizWrapper.js:158-169 | the band counts sum to the number of records that fall in some enabled band |
| Threshold.CountOnlyEnabled | lokdhaba_js/src/Components/Shared/DataVizWrapper.js:160-169 | only enabled bands from the band list receive counts |
| Threshold.BinnedAtMost | lokdhaba_js/src/Components/Shared/DataVizWrapper.js:158-169 | no more records are counted than there are |
| Threshold.ThresholdLegendFacts | lokdhaba_js/src/Components/Shared/DataVizWrapper.js:158-180 | the legend lists distinct enabled bands in the fixed order, each with its exact non-zero count; every band with a count appears; the total is at most the number of records |
| Threshold.SwatchMatchesMap | lokdhaba_js/src/Components/Shared/DataVizWrapper.js:241-295 | for positions and NOTA shares, a band's swatch is the colour the map gives its records |
| Threshold.CandidateSwatchesSwapped | lokdhaba_js/src/Components/Shared/DataVizWrapper.js:144-186 | for candidate counts, 20 is drawn "#6baed6" but ">15" is listed with "#08306b", and 7 is drawn "#08306b" but "5-15" is listed with "#6baed6"; only "<5" agrees |
| Threshold.ZeroCountedButTransparent | lokdhaba_js/src/Components/Shared/DataVizWrapper.js:144-169 | 0 and `null` are counted in the lowest candidate-count or NOTA band, yet drawn transparent |
| Threshold.CandidateCountExample | lokdhaba_js/src/Components/Shared/DataVizWrapper.js:140-188 | counts 3, 7, 20, 20 with "5-15" disabled give the legend [("<5", 1), (">15", 2)], and 7 is drawn transparent |
| ChangeMap.ScanChange | lokdhaba_js/src/Components/Shared/DataVizWrapper.js:370-381 | the bounds stay infinite exactly when the change field holds no number; otherwise they are the largest and smallest numbers present |
| ChangeMap.NormalizedColor | lokdhaba_js/src/Components/Shared/DataVizWrapper.js:383 | the curried colour function at bounds `lo` and `hi`: no-data for falsy values, a gain is the mix from white towards the max colour at ratio value/hi, a loss the mix from the min colour towards white at ratio (value-lo)/(-lo) |
| ChangeMap.OneChangeColor | lokdhaba_js/src/Components/Shared/DataVizWrapper.js:383-404 | with the scanned bounds, a record's colour is no-data when falsy; a gain is the rounded-up mix from white to the max colour at ratio value/largest, and a loss the mix from the min colour to white at ratio (value-smallest)/(-smallest) |
| ChangeMap.ChangeMapColors | lokdhaba_js/src/Components/Shared/DataVizWrapper.js:370-404 | every record gets a colour at the bounds of the scan: no-data for falsy values; a gain is the rounded-up mix from white to the max colour at ratio value/largest, a loss the mix from the min colour to white at ratio (value-smallest)/(-smallest); each colour is the one the curried normalised colour function gives that record; the largest gain is the max colour and the largest loss the min colour |
| Display.StripUnderscores | lokdhaba_js/src/Components/Shared/DataVizWrapper.js:441 | the result has no underscore and keeps every other character exactly as often as the input; its length drops by the number of underscores |
| Display.StripAppend | lokdhaba_js/src/Components/Shared/DataVizWrapper.js:441 | removing underscores distributes over concatenation, so the order of kept characters is preserved |
| Display.StripIdentity | lokdhaba_js/src/Components/Shared/DataVizWrapper.js:441 | a string without underscores is unchanged, so the removal is idempotent |
| Display.SpaceUnderscores | lokdhaba_js/src/Components/Shared/DataVizWrapper.js:447 | same length; underscores become spaces and every other character is kept in place |
| Display.ElectionTypeDisplay | lokdhaba_js/src/Components/Shared/DataVizWrapper.js:107 | "Lok Sabha" exactly for "GE", "Vidhan Sabha" otherwise |
| Display.StateNameDisplay | lokdhaba_js/src/Components/Shared/DataVizWrapper.js:108 | "Lok_Sabha" displays as nothing; any other name keeps its length, every non-underscore character stays in place, and every underscore becomes a space |
| Charts.OverlayOptions | lokdhaba_js/src/Components/Shared/DataVizWrapper.js:440-449 | the overlays keep option order; an option appears exactly as often as in the input when its underscore-free name is a non-empty enabled filter option, and never otherwise; each carries its spaced label and its underscore-free name |
| Charts.ChartConfigFor | lokdhaba_js/src/Components/Shared/DataVizWrapper.js:433-573 | unknown identifiers keep the defaults; a chart is a scatter chart exactly when it plots a field; only the seat-share chart shows additional text; the three bar charts are the turnout, parties and deposit charts |
| Charts.RenderChart | lokdhaba_js/src/Components/Shared/DataVizWrapper.js:574-594 | a bar chart receives the offered overlays, a scatter chart its field, and an unknown chart renders nothing |
| Maps.MapConfigFor | lokdhaba_js/src/Components/Shared/DataVizWrapper.js:111-368 | unknown identifiers keep the defaults; every known map shows a field; the legend is continuous exactly for gradient maps and discrete exactly for palette and banded maps; only continuous maps have a change field |
| Maps.MapAndChartIdsDisjoint | lokdhaba_js/src/Components/Shared/DataVizWrapper.js:126-573 | no identifier selects both a map and a chart |
| Maps.MapColorFor | lokdhaba_js/src/Components/Shared/DataVizWrapper.js:126-368 | a map without a colour function gives none. A palette map gives the colour of the first palette entry whose field equals the value, or the transparent default when none does. A banded map leaves falsy values transparent and gives any other value its enabled band's colour, or the default when the band is disabled. A gradient map leaves falsy values transparent and shades a percentage in (0, 100] with every channel rounded up from the mix at ratio value/100 |
| Maps.LegendColorFor | lokdhaba_js/src/Components/Shared/DataVizWrapper.js:126-368 | only palette and banded maps have swatches. A palette swatch is the colour of the first palette entry whose field equals the key, or the default when none does. On the position and NOTA maps a band's swatch is its band colour. A banded map's unknown key gets the fallback |
| Maps.PaletteSwatchAgrees | lokdhaba_js/src/Components/Shared/DataVizWrapper.js:131-137 | on a palette map, a legend key's swatch is the colour of the records holding that value |
| Maps.BandSwatchAgrees | lokdhaba_js/src/Components/Shared/DataVizWrapper.js:241-364 | on the position and NOTA maps, a band's swatch is the colour of the records in it |
| Maps.CandidateSwatchesDisagree | lokdhaba_js/src/Components/Shared/DataVizWrapper.js:140-188 | on the candidate-count map, the upper two bands' swatches differ from the colours of their records |
| Maps.DiscreteLegend | lokdhaba_js/src/Components/Shared/DataVizWrapper.js:126-368 | palette maps throw exactly on a missing value and otherwise list their values by count, equal counts in order of first occurrence; a banded map's legend is exactly the threshold legend of its field, its bands in the fixed order each with its band count; gradient and unknown maps list nothing; the keys are distinct and enabled, with non-zero counts |
| Maps.RenderMap | lokdhaba_js/src/Components/Shared/DataVizWrapper.js:110-431 | it fails exactly when a palette map meets a missing value, in either view. The normal view shows the field on 0-100, with each record coloured by the map's function. The change view shows the change field between its scanned extremes, and each record's colour is the normalised colour at those extremes: the rounded-up mix at ratio value/largest for a gain and (value-smallest)/(-smallest) for a loss. Both views pass the map's legend type and legend |
| Values.ToNumber | lokdhaba_js/src/Components/Shared/DataVizWrapper.js:148-152 | relational comparisons read `null` as 0 and `undefined` as no number |
| Values.ParseFloat | lokdhaba_js/src/Components/Shared/DataVizWrapper.js:375-378 | `parseFloat` on a number, `null` or `undefined`: the number itself, and no number (NaN) for `null` and `undefined` |
| Legends.Bump | lokdhaba_js/src/Components/Shared/DataVizWrapper.js:89 | one increment of the counting object (also line 163): an unset key becomes 1, a set key goes up by one, no other key changes, and the key becomes set |
| Color.Ceil | lokdhaba_js/src/Components/Shared/DataVizWrapper.js:38-40 | `Math.ceil`: the least integer at or above its argument |
| Hex.ToRadix16Prints | lokdhaba_js/src/Components/Shared/DataVizWrapper.js:34 | `x.toString(16)` is the lower-case base-16 numeral of `x`, without leading zeros, with a '-' before the magnitude when `x` is negative |
| Hex.ToHexNatPrints | lokdhaba_js/src/Components/Shared/DataVizWrapper.js:34 | the numeral of a non-negative integer has lower-case digits, denotes it, and has no leading zero |

## Left out

- JavaScript floating point: numbers are exact reals, so `Math.ceil` never sees a binary rounding error, and NaN and the infinities exist only where the change scan needs them.
- String-to-number coercion: the banded and gradient maps, and the change scan, require their fields to hold numbers, `null` or `undefined`, never strings. The source's `<`, `/` and `parseFloat` would coerce numeric strings.
- `Number.prototype.toString`: the categorical legend requires its field to hold strings or missing values, not numbers. The source stringifies numbers first.
- Categorical.GetSortedLegendFromValue: counting is modelled as a map from value to count, not a plain JavaScript object. A value that names an `Object.prototype` member (`constructor`, `toString`, `__proto__`, ...) is counted like any other value; the source would start from the inherited member (giving a string count) or, for `__proto__`, drop the value.
- Property order of JavaScript objects: the legends are ordered sequences. The source's objects list integer-like keys first, in ascending order. This matters only for a categorical value that looks like an integer.
- Malformed colour strings: every colour parameter must be six hex digits. The source would produce "NaN" channels.
- Palette contents and the colour constants (`Constants.legendColorCodes`, the three palette JSON files) are parameters. A palette entry is assumed to carry its colour field.
- `curry`, the map and chart titles, the chart layouts, `getAdditionalText`, and the React components (`MapViz`, `BarChart`, `PartyScatterChart`) with the props they merely pass through. The top-level dispatch on the visualisation type is the choice between `Maps.RenderMap` and `Charts.RenderChart`.
- ChangeMap.ScanChange: it stores the parsed number rather than the raw field value. The source compares through `parseFloat` (lines 375 and 378) but later divides by the raw bound (lines 60 and 64). The two agree because the change field is required to hold numbers, `null` or `undefined` only; a numeric string would be coerced differently by the two.
- Color.GetColorForContinuous: it characterises colours only for values in (0, 100]. Outside that range a channel can leave 0..255, and `hex` then yields signed or three-digit strings. The model computes these strings but states nothing about them.
- Color.GetColorForContinuousNormalized: it requires the value to lie within the scanned bounds. This is how the change view calls it.

=== FILE: categorical.dfy ===
/** `getSortedLegendFromValue` (DataVizWrapper.js lines 83-103): the legend of the
    categorical maps (constituency type, gender, winning party). Every record whose
    stringified value is an enabled bucket is counted; the legend lists the
    buckets by descending count, ties in order of first occurrence
    (`TiesInFirstOccurrence`). */
module Categorical {
  import opened Values
  import opened Legends

  /** The insertion-ordered counting object: keys in the order they were first
      set, and their counts. */
  datatype Counter = Counter(order: seq<string>, counts: map<string, nat>)

  ghost predicate ValidCounter(c: Counter) {
    && Distinct(c.order)
    && c.counts.Keys == set k | k in c.order
    && (forall k :: k in c.counts ==> c.counts[k] > 0)
  }

  /** A column the categorical legend can read: strings, or missing values on which
      `toString` throws. */
  predicate CategoricalColumn(col: seq<Value>) {
    forall i :: 0 <= i < |col| ==> !col[i].Num?
  }

  predicate AllText(col: seq<Value>) {
    forall i :: 0 <= i < |col| ==> col[i].Text?
  }

  /** Number of records whose value is one of the enabled buckets. */
  function CountEnabled(col: seq<Value>, enabled: set<string>): nat
    requires AllText(col)
  {
    if |col| == 0 then 0
    else (if col[0].s in enabled then 1 else 0) + CountEnabled(col[1..], enabled)
  }

  /** The first loop of the source: count each enabled value, in record order. */
  function Tally(col: seq<Value>, enabled: set<string>): (c: Counter)
    requires AllText(col)
    decreases |col|
  {
    if |col| == 0 then Counter([], map[])
    else
      var prev := Tally(col[..|col| - 1], enabled);
      var v := col[|col| - 1].s;
      if v !in enabled then prev
      else if v in prev.counts then Counter(prev.order, Bump(prev.counts, v))
      else Counter(prev.order + [v], Bump(prev.counts, v))
  }

  /** The counting object's keys are distinct, appear in its key order, and every
      count is non-zero. */
  lemma {:induction false} TallyValid(col: seq<Value>, enabled: set<string>)
    requires AllText(col)
    ensures ValidCounter(Tally(col, enabled))
    ensures forall k :: k in Tally(col, enabled).counts ==> k in enabled
    decreases |col|
  {
    if |col| > 0 {
      var n := |col| - 1;
      TallyValid(col[..n], enabled);
      var prev := Tally(col[..n], enabled);
      var v := col[n].s;
      if v in enabled && v !in prev.counts {
        assert v !in prev.order;
        assert Distinct(prev.order + [v]);
      }
    }
  }

  /** Every enabled value of the column is a key of the counting object. */
  lemma {:induction false} TallyCovers(col: seq<Value>, enabled: set<string>)
    requires AllText(col)
    ensures forall k :: k in enabled && Text(k) in multiset(col) ==> k in Tally(col, enabled).counts
    ensures forall i :: 0 <= i < |col| && col[i].s in enabled ==> col[i].s in Tally(col, enabled).counts
    decreases |col|
  {
    if |col| > 0 {
      var n := |col| - 1;
      var front := col[..n];
      TallyCovers(front, enabled);
      assert col == front + [col[n]];
      assert multiset(col) == multiset(front) + multiset{col[n]};
    }
    forall i | 0 <= i < |col| && col[i].s in enabled
      ensures col[i].s in Tally(col, enabled).counts
    {
      assert col[i] == Text(col[i].s);
      assert col[i] in multiset(col);
    }
  }

  /** Every key's count is its number of occurrences in the column. */
  lemma {:induction false} TallyCounts(col: seq<Value>, enabled: set<string>)
    requires AllText(col)
    ensures forall k :: k in Tally(col, enabled).counts ==> Tally(col, enabled).counts[k] == multiset(col)[Text(k)]
    decreases |col|
  {
    if |col| > 0 {
      var n := |col| - 1;
      var front := col[..n];
      TallyCounts(front, enabled);
      TallyCovers(front, enabled);
      TallyValid(col, enabled);
      assert col == front + [col[n]];
      assert forall k :: multiset(col)[Text(k)] == multiset(front)[Text(k)] + (if k == col[n].s then 1 else 0);
    }
  }

  /** Position of the first record holding `k`. */
  function FirstIndex(col: seq<Value>, k: string): (p: nat)
    requires Text(k) in col
    ensures p < |col| && col[p] == Text(k)
    ensures forall q :: 0 <= q < p ==> col[q] != Text(k)
  {
    if col[0] == Text(k) then 0 else 1 + FirstIndex(col[1..], k)
  }

  lemma FirstIndexSnoc(front: seq<Value>, x: Value, k: string)
    requires Text(k) in front
    ensures Text(k) in front + [x] && FirstIndex(front + [x], k) == FirstIndex(front, k)
  {
    var col := front + [x];
    var q := FirstIndex(front, k);
    assert col[q] == Text(k);
    assert forall i :: 0 <= i < |front| ==> col[i] == front[i];
  }

  lemma FirstIndexLast(front: seq<Value>, k: string)
    requires Text(k) !in front
    ensures FirstIndex(front + [Text(k)], k) == |front|
  {
    var col := front + [Text(k)];
    assert forall i :: 0 <= i < |front| ==> col[i] == front[i];
  }

  /** `order` lists values of the column in order of their first occurrence. */
  ghost predicate FirstOrdered(col: seq<Value>, order: seq<string>) {
    && (forall k :: k in order ==> Text(k) in col)
    && (forall i, j :: 0 <= i < j < |order| ==> FirstIndex(col, order[i]) < FirstIndex(col, order[j]))
  }

  lemma ExtendColumn(front: seq<Value>, x: Value, order: seq<string>)
    requires FirstOrdered(front, order)
    ensures FirstOrdered(front + [x], order)
  {
    forall k | k in order
      ensures Text(k) in front + [x] && FirstIndex(front + [x], k) == FirstIndex(front, k)
    {
      FirstIndexSnoc(front, x, k);
    }
  }

  lemma ExtendOrder(front: seq<Value>, k: string, order: seq<string>)
    requires FirstOrdered(front, order) && Text(k) !in front
    ensures FirstOrdered(front + [Text(k)], order + [k])
  {
    var col := front + [Text(k)];
    ExtendColumn(front, Text(k), order);
    FirstIndexLast(front, k);
    var o := order + [k];
    forall i, j | 0 <= i < j < |o|
      ensures FirstIndex(col, o[i]) < FirstIndex(col, o[j])
    {
      assert o[i] == order[i];
      if j < |order| {
        assert o[j] == order[j];
      }
    }
  }

  /** The counting object lists its keys in order of their first occurrence in the
      column, which is the order the source's object enumerates them in. */
  lemma {:induction false} TallyOrder(col: seq<Value>, enabled: set<string>)
    requires AllText(col)
    ensures FirstOrdered(col, Tally(col, enabled).order)
    decreases |col|
  {
    if |col| > 0 {
      var n := |col| - 1;
      var front := col[..n];
      TallyOrder(front, enabled);
      var prev := Tally(front, enabled);
      assert col == front + [col[n]];
      var v := col[n].s;
      if v in enabled && v !in prev.counts {
        TallyCovers(front, enabled);
        assert Text(v) !in multiset(front);
        ExtendOrder(front, v, prev.order);
      } else {
        ExtendColumn(front, col[n], prev.order);
      }
    }
  }

  /** The counts sum to the number of records whose value is enabled. */
  lemma {:induction false} TallySum(col: seq<Value>, enabled: set<string>)
    requires AllText(col)
    ensures SumOver(Tally(col, enabled).order, Tally(col, enabled).counts) == CountEnabled(col, enabled)
    decreases |col|
  {
    if |col| > 0 {
      var n := |col| - 1;
      var front := col[..n];
      TallySum(front, enabled);
      TallyValid(front, enabled);
      var prev := Tally(front, enabled);
      var v := col[n].s;
      assert col == front + [col[n]];
      CountEnabledSnoc(front, col[n], enabled);
      SumOverBump(prev.order, prev.counts, v);
      if v in enabled && v !in prev.counts {
        SumOverSnoc(prev.order, v, Bump(prev.counts, v));
      }
    }
  }

  lemma {:induction false} CountEnabledSnoc(col: seq<Value>, v: Value, enabled: set<string>)
    requires AllText(col) && v.Text?
    ensures AllText(col + [v])
    ensures CountEnabled(col + [v], enabled) == CountEnabled(col, enabled) + (if v.s in enabled then 1 else 0)
    decreases |col|
  {
    if |col| > 0 {
      assert (col + [v])[1..] == col[1..] + [v];
      CountEnabledSnoc(col[1..], v, enabled);
    }
  }

  lemma {:induction false} SumOverSnoc(keys: seq<string>, k: string, counts: map<string, nat>)
    ensures SumOver(keys + [k], counts) == SumOver(keys, counts) + Lookup(counts, k)
    decreases |keys|
  {
    if |keys| > 0 {
      assert (keys + [k])[1..] == keys[1..] + [k];
      SumOverSnoc(keys[1..], k, counts);
    }
  }

  /** Buckets of equal count are listed in the order their values first occur in
      the column. */
  ghost predicate TiesByFirstOccurrence(col: seq<Value>, l: Legend) {
    forall i, j :: 0 <= i < j < |l| && l[i].1 == l[j].1 ==>
      Text(l[i].0) in col && Text(l[j].0) in col && FirstIndex(col, l[i].0) < FirstIndex(col, l[j].0)
  }

  /** Each value of `order` found in the column, ranked by its first record. */
  function FirstRank(col: seq<Value>, order: seq<string>): (rank: map<string, int>)
    ensures forall k :: k in rank <==> k in order && Text(k) in col
    ensures forall k :: k in rank ==> rank[k] == FirstIndex(col, k)
  {
    map k | k in order && Text(k) in col :: FirstIndex(col, k)
  }

  /** The legend emitted from the counting object lists exactly its keys, in
      its order. */
  lemma EmittedKeys(col: seq<Value>, enabled: set<string>)
    requires AllText(col)
    ensures var c := Tally(col, enabled);
      KeysOf(Emit(c.order, c.counts)) == c.order
  {
    var c := Tally(col, enabled);
    TallyValid(col, enabled);
    assert forall k :: k in c.order ==> Lookup(c.counts, k) > 0 by {
      assert forall k :: k in c.order ==> k in c.counts.Keys;
    }
    EmitKeys(c.order, c.counts);
  }

  /** A legend whose keys are a first-occurrence order is ranked by first occurrence. */
  lemma OrderRanked(col: seq<Value>, order: seq<string>, l: Legend)
    requires FirstOrdered(col, order) && KeysOf(l) == order
    ensures Ranked(l, FirstRank(col, order))
  {
    assert forall i :: 0 <= i < |l| ==> l[i].0 == order[i];
  }

  /** The legend emitted from the counting object lists its keys ranked by first
      occurrence. */
  lemma EmittedRanked(col: seq<Value>, enabled: set<string>)
    requires AllText(col)
    ensures var c := Tally(col, enabled);
      Ranked(Emit(c.order, c.counts), FirstRank(col, c.order))
  {
    var c := Tally(col, enabled);
    TallyOrder(col, enabled);
    EmittedKeys(col, enabled);
    OrderRanked(col, c.order, Emit(c.order, c.counts));
  }

  lemma TiesRankedByFirst(col: seq<Value>, order: seq<string>, l: Legend)
    requires TiesRanked(l, FirstRank(col, order))
    ensures TiesByFirstOccurrence(col, l)
  {
  }

  /** Counting, emitting in key order and the stable sort together list equal
      counts in first-occurrence order. */
  lemma TiesInFirstOccurrence(col: seq<Value>, enabled: set<string>)
    requires AllText(col)
    ensures var c := Tally(col, enabled);
      TiesByFirstOccurrence(col, SortByCountDesc(Emit(c.order, c.counts)))
  {
    var c := Tally(col, enabled);
    var rank := FirstRank(col, c.order);
    EmittedRanked(col, enabled);
    SortTiesRanked(Emit(c.order, c.counts), rank);
    TiesRankedByFirst(col, c.order, SortByCountDesc(Emit(c.order, c.counts)));
  }

  /** The sorted legend: buckets are enabled, distinct, counted exactly, every
      enabled value present in the data has its bucket, counts never increase,
      and the counts sum to the number of records with an enabled value. A missing
      value makes `toString` throw. */
  function GetSortedLegendFromValue(col: seq<Value>, enabled: set<string>): (r: Result<Legend>)
    requires CategoricalColumn(col)
    ensures r.TypeError? <==> exists i :: 0 <= i < |col| && (col[i].Undefined? || col[i].Null?)
    ensures r.Ok? ==> AllText(col) && CategoricalLegend(col, enabled, r.value)
    ensures r.Ok? ==> TiesByFirstOccurrence(col, r.value)
  {
    if exists i :: 0 <= i < |col| && !col[i].Text? then TypeError
    else
      var c := Tally(col, enabled);
      var sorted := SortByCountDesc(Emit(c.order, c.counts));
      SortedLegendFacts(col, enabled);
      TiesInFirstOccurrence(col, enabled);
      Ok(sorted)
  }

  /** What the categorical legend promises about a column. */
  ghost predicate CategoricalLegend(col: seq<Value>, enabled: set<string>, l: Legend)
    requires AllText(col)
  {
    && (forall i :: 0 <= i < |l| ==> l[i].0 in enabled && l[i].1 == multiset(col)[Text(l[i].0)] > 0)
    && Distinct(KeysOf(l))
    && (forall i :: 0 <= i < |col| && col[i].s in enabled ==> col[i].s in KeysOf(l))
    && NonIncreasing(l)
    && Total(l) == CountEnabled(col, enabled)
  }

  lemma SortedLegendFacts(col: seq<Value>, enabled: set<string>)
    requires AllText(col)
    ensures var c := Tally(col, enabled);
      CategoricalLegend(col, enabled, SortByCountDesc(Emit(c.order, c.counts)))
  {
    var c := Tally(col, enabled);
    TallyValid(col, enabled);
    TallyCovers(col, enabled);
    TallyCounts(col, enabled);
    TallySum(col, enabled);
    var unsorted := Emit(c.order, c.counts);
    var sorted := SortByCountDesc(unsorted);
    EmitDistinct(c.order, c.counts);
    SortKeepsDistinct(unsorted);
    forall i | 0 <= i < |sorted|
      ensures sorted[i].0 in enabled && sorted[i].1 == multiset(col)[Text(sorted[i].0)] > 0
    {
      assert sorted[i] in multiset(unsorted);
      var j :| 0 <= j < |unsorted| && unsorted[j] == sorted[i];
      assert unsorted[j].0 in c.order;
    }
    forall i | 0 <= i < |col| && col[i].s in enabled
      ensures col[i].s in KeysOf(sorted)
    {
      var k := col[i].s;
      assert k in c.order;
      assert k in KeysOf(unsorted);
      assert k in multiset(KeysOf(sorted));
    }
  }
}

=== FILE: changemap.dfy ===
/** The change map (DataVizWrapper.js lines 370-383): the extremes of the change
    field over the data, and the diverging colour of every record built from them. */
module ChangeMap {
  import opened Values
  import opened Color
  import opened Hex

  /** A JavaScript number that may be infinite. */
  datatype Extended = NegInf | PosInf | Finite(x: real)

  /** `parseFloat(val) > parseFloat(bound)`, false when `val` parses to NaN. */
  predicate Exceeds(v: Value, e: Extended)
    requires IsNumeric(v)
  {
    match ParseFloat(v)
    case None => false
    case Some(y) => e.NegInf? || (e.Finite? && y > e.x)
  }

  /** `parseFloat(val) < parseFloat(bound)`, false when `val` parses to NaN. */
  predicate Undercuts(v: Value, e: Extended)
    requires IsNumeric(v)
  {
    match ParseFloat(v)
    case None => false
    case Some(y) => e.PosInf? || (e.Finite? && y < e.x)
  }

  predicate HasNumber(col: seq<Value>) {
    exists i :: 0 <= i < |col| && col[i].Num?
  }

  /** The scan: starting from -Infinity and +Infinity, a value that parses above the
      running maximum (below the running minimum) replaces it; values that do not
      parse are skipped. The bounds are the largest and smallest numbers of the
      column, and stay infinite when it holds none. */
  method ScanChange(col: seq<Value>) returns (lo: Extended, hi: Extended)
    requires NumericColumn(col)
    ensures !HasNumber(col) <==> hi == NegInf
    ensures !HasNumber(col) <==> lo == PosInf
    ensures hi != PosInf && lo != NegInf
    ensures hi.Finite? ==> (forall i :: 0 <= i < |col| && col[i].Num? ==> col[i].x <= hi.x)
                           && (exists i :: 0 <= i < |col| && col[i] == Num(hi.x))
    ensures lo.Finite? ==> (forall i :: 0 <= i < |col| && col[i].Num? ==> lo.x <= col[i].x)
                           && (exists i :: 0 <= i < |col| && col[i] == Num(lo.x))
  {
    hi, lo := NegInf, PosInf;
    var index := 0;
    while index < |col|
      invariant 0 <= index <= |col|
      invariant hi != PosInf && lo != NegInf
      invariant !HasNumber(col[..index]) <==> hi == NegInf
      invariant !HasNumber(col[..index]) <==> lo == PosInf
      invariant hi.Finite? ==> (forall i :: 0 <= i < index && col[i].Num? ==> col[i].x <= hi.x)
                               && (exists i :: 0 <= i < index && col[i] == Num(hi.x))
      invariant lo.Finite? ==> (forall i :: 0 <= i < index && col[i].Num? ==> lo.x <= col[i].x)
                               && (exists i :: 0 <= i < index && col[i] == Num(lo.x))
    {
      var v := col[index];
      assert col[..index + 1] == col[..index] + [v];
      if Exceeds(v, hi) {
        hi := Finite(v.x);
      }
      if Undercuts(v, lo) {
        lo := Finite(v.x);
      }
      index := index + 1;
    }
    assert col[..|col|] == col;
  }

  /** `col[i]` is a number no other number of the column exceeds. */
  predicate IsLargest(col: seq<Value>, i: nat)
    requires i < |col|
  {
    col[i].Num? && forall j :: 0 <= j < |col| && col[j].Num? ==> col[j].x <= col[i].x
  }

  /** `col[i]` is a number no other number of the column is below. */
  predicate IsSmallest(col: seq<Value>, i: nat)
    requires i < |col|
  {
    col[i].Num? && forall j :: 0 <= j < |col| && col[j].Num? ==> col[i].x <= col[j].x
  }

  /** What the change map promises for the colour `c` of record `i`, given the
      bounds `lo` and `hi` of the scale: a gain is shaded from white towards
      `maxColor` by its share of `hi`, a loss from `minColor` towards white by its
      distance from `lo` as a share of `-lo`. */
  predicate ChangeColorOk(col: seq<Value>, i: nat, lo: Extended, hi: Extended, c: string, minColor: string, maxColor: string)
    requires i < |col| && IsNumeric(col[i]) && IsHexColor(minColor) && IsHexColor(maxColor)
  {
    var v := col[i];
    && (Falsy(v) ==> c == NoDataColor)
    && (Truthy(v) && v.x > 0.0 ==>
          && hi.Finite? && v.x <= hi.x && IsEncodedColor(c)
          && IsCeilBlend(DecodeColor(c), v.x / hi.x, ParseRgb(White), ParseRgb(maxColor)))
    && (Truthy(v) && v.x < 0.0 ==>
          && lo.Finite? && lo.x <= v.x && IsEncodedColor(c)
          && IsCeilBlend(DecodeColor(c), (v.x - lo.x) / -lo.x, ParseRgb(minColor), ParseRgb(White)))
    && (Truthy(v) && v.x > 0.0 ==> IsEncodedColor(c) && Between(DecodeColor(c), ParseRgb(White), ParseRgb(maxColor)))
    && (Truthy(v) && v.x < 0.0 ==> IsEncodedColor(c) && Between(DecodeColor(c), ParseRgb(minColor), ParseRgb(White)))
    && (Truthy(v) && v.x > 0.0 && IsLargest(col, i) ==> c == "#" + Lower(maxColor))
    && (Truthy(v) && v.x < 0.0 && IsSmallest(col, i) ==> c == "#" + Lower(minColor))
  }

  /** The scan's result for a column: every number lies within finite bounds that
      are themselves numbers of the column. */
  ghost predicate Spans(col: seq<Value>, lo: Extended, hi: Extended) {
    && (HasNumber(col) ==> lo.Finite? && hi.Finite?)
    && (hi.Finite? ==> (forall i :: 0 <= i < |col| && col[i].Num? ==> col[i].x <= hi.x)
                       && (exists i :: 0 <= i < |col| && col[i] == Num(hi.x)))
    && (lo.Finite? ==> (forall i :: 0 <= i < |col| && col[i].Num? ==> lo.x <= col[i].x)
                       && (exists i :: 0 <= i < |col| && col[i] == Num(lo.x)))
  }

  /** `getMapColorNormalized` with the scanned bounds bound in: a falsy value never
      reaches the bounds, so they may still be infinite. A gain is blended from white
      by its share of `hi`, a loss towards white by its distance from `lo` as a share
      of `-lo`. */
  function NormalizedColor(lo: Extended, hi: Extended, minColor: string, maxColor: string, v: Value): (c: string)
    requires IsHexColor(minColor) && IsHexColor(maxColor) && IsNumeric(v)
    requires Truthy(v) ==> lo.Finite? && hi.Finite? && lo.x <= v.x <= hi.x
    ensures Falsy(v) ==> c == NoDataColor
    ensures Truthy(v) && v.x > 0.0 ==>
      IsEncodedColor(c) && IsCeilBlend(DecodeColor(c), v.x / hi.x, ParseRgb(White), ParseRgb(maxColor))
    ensures Truthy(v) && v.x < 0.0 ==>
      IsEncodedColor(c) && IsCeilBlend(DecodeColor(c), (v.x - lo.x) / -lo.x, ParseRgb(minColor), ParseRgb(White))
  {
    if Falsy(v) then NoDataColor
    else
      var min, max := lo.x, hi.x;
      GetColorForContinuousNormalized(min, max, minColor, maxColor, v)
  }

  lemma OneChangeColor(col: seq<Value>, i: nat, lo: Extended, hi: Extended, minColor: string, maxColor: string)
    requires i < |col| && IsNumeric(col[i]) && IsHexColor(minColor) && IsHexColor(maxColor)
    requires Spans(col, lo, hi)
    ensures Truthy(col[i]) ==> lo.Finite? && hi.Finite? && lo.x <= col[i].x <= hi.x
    ensures Truthy(col[i]) ==> ChangeColorOk(col, i, lo, hi, NormalizedColor(lo, hi, minColor, maxColor, col[i]), minColor, maxColor)
    ensures Falsy(col[i]) ==> ChangeColorOk(col, i, lo, hi, NoDataColor, minColor, maxColor)
  {
    var v := col[i];
    if Truthy(v) {
      assert HasNumber(col);
      if IsLargest(col, i) {
        var k :| 0 <= k < |col| && col[k] == Num(hi.x);
        assert v.x == hi.x;
      }
      if IsSmallest(col, i) {
        var k :| 0 <= k < |col| && col[k] == Num(lo.x);
        assert v.x == lo.x;
      }
    }
  }

  /** The change map's bounds and its colours for every record (`getMapColorNormalized`
      applied to each): falsy values get the no-data sentinel, positive values shade from white
      towards `maxColor` and the largest reaches it, negative values shade from
      `minColor` towards white and the smallest is `minColor`. */
  method ChangeMapColors(col: seq<Value>, minColor: string, maxColor: string)
      returns (lo: Extended, hi: Extended, colors: seq<string>)
    requires NumericColumn(col)
    requires IsHexColor(minColor) && IsHexColor(maxColor)
    ensures Spans(col, lo, hi)
    ensures !HasNumber(col) <==> hi == NegInf && lo == PosInf
    ensures |colors| == |col|
    ensures forall i :: 0 <= i < |col| ==> IsNumeric(col[i]) && ChangeColorOk(col, i, lo, hi, colors[i], minColor, maxColor)
    ensures forall i :: 0 <= i < |col| ==>
              && IsNumeric(col[i])
              && (Truthy(col[i]) ==> lo.Finite? && hi.Finite? && lo.x <= col[i].x <= hi.x)
              && colors[i] == NormalizedColor(lo, hi, minColor, maxColor, col[i])
  {
    lo, hi := ScanChange(col);
    assert Spans(col, lo, hi);
    forall i | 0 <= i < |col|
      ensures Truthy(col[i]) ==> lo.Finite? && hi.Finite? && lo.x <= col[i].x <= hi.x
      ensures ChangeColorOk(col, i, lo, hi, NormalizedColor(lo, hi, minColor, maxColor, col[i]), minColor, maxColor)
    {
      OneChangeColor(col, i, lo, hi, minColor, maxColor);
    }
    colors := seq(|col|, i requires 0 <= i < |col| => NormalizedColor(lo, hi, minColor, maxColor, col[i]));
  }
}

=== FILE: charts.dfy ===
/** The chart branch of `render` (DataVizWrapper.js lines 433-595): the overlay
    options a bar chart offers, and the table from a chart identifier to the kind
    of chart and the field it plots. */
module Charts {
  import opened Display
  import Legends

  /** One overlay a bar chart may draw: a display caption (`label` in the source),
      the option name as given, and the filter-option name it answers to. */
  datatype Overlay = Overlay(caption: string, value: string, dataFilterOptionName: string)

  /** An option is offered when its name without underscores is an enabled filter
      option. `find` hands back the matching string, and an empty match is falsy,
      so an option made only of underscores is never offered. */
  predicate Offered(element: string, enabled: set<string>) {
    var x := StripUnderscores(element);
    x in enabled && x != ""
  }

  function OverlayValues(os: seq<Overlay>): (vs: seq<string>)
    ensures |vs| == |os| && forall k :: 0 <= k < |os| ==> vs[k] == os[k].value
  {
    seq(|os|, k requires 0 <= k < |os| => os[k].value)
  }

  /** The overlays offered for the chart's options, in option order: each option
      that is offered appears exactly as often as in `options`, labelled with its
      underscores spaced out, and nothing else appears. */
  function OverlayOptions(options: seq<string>, enabled: set<string>): (r: seq<Overlay>)
    ensures forall k :: 0 <= k < |r| ==> Offered(r[k].value, enabled)
    ensures forall k :: 0 <= k < |r| ==>
              r[k].caption == SpaceUnderscores(r[k].value) && r[k].dataFilterOptionName == StripUnderscores(r[k].value)
    ensures Legends.IsSubsequence(OverlayValues(r), options)
    ensures forall e :: multiset(OverlayValues(r))[e] == if Offered(e, enabled) then multiset(options)[e] else 0
    decreases |options|
  {
    if |options| == 0 then []
    else
      var rest := OverlayOptions(options[1..], enabled);
      var e := options[0];
      assert options == [e] + options[1..];
      if Offered(e, enabled) then
        var o := Overlay(SpaceUnderscores(e), e, StripUnderscores(e));
        assert OverlayValues([o] + rest) == [e] + OverlayValues(rest);
        [o] + rest
      else rest
  }

  datatype ChartType = NoChart | BarChart | PartyScatterChart

  /** What the switch on the chart identifier sets. */
  datatype ChartConfig = ChartConfig(chartType: ChartType, vizParameter: string, showAdditionalText: bool)

  /** The values the chart branch starts from, kept for an unknown identifier. */
  const DefaultChart: ChartConfig := ChartConfig(NoChart, "", false)

  const ChartIds: set<string> := {
    "voterTurnoutChart", "partiesPresentedChart", "tvoteShareChart", "cvoteShareChart",
    "seatShareChart", "strikeRateChart", "contestedDepositSavedChart"
  }

  /** The seven charts: three bar charts over the offered overlays and four party
      scatter charts each plotting one field; only the seat-share chart annotates
      its points. */
  function ChartConfigFor(visualization: string): (c: ChartConfig)
    ensures visualization !in ChartIds <==> c == DefaultChart
    ensures c.chartType.PartyScatterChart? <==> c.vizParameter != ""
    ensures c.showAdditionalText <==> visualization == "seatShareChart"
    ensures c.chartType.BarChart? <==>
              visualization in {"voterTurnoutChart", "partiesPresentedChart", "contestedDepositSavedChart"}
  {
    match visualization
    case "voterTurnoutChart" => ChartConfig(BarChart, "", false)
    case "partiesPresentedChart" => ChartConfig(BarChart, "", false)
    case "tvoteShareChart" => ChartConfig(PartyScatterChart, "Vote_Share_in_Assembly", false)
    case "cvoteShareChart" => ChartConfig(PartyScatterChart, "Vote_Share_in_Contested_Seats", false)
    case "seatShareChart" => ChartConfig(PartyScatterChart, "Seat_Share", true)
    case "strikeRateChart" => ChartConfig(PartyScatterChart, "Strike_Rate", false)
    case "contestedDepositSavedChart" => ChartConfig(BarChart, "", false)
    case _ => DefaultChart
  }

  /** What the chart branch hands to a chart component, if any. */
  datatype ChartView =
    | NothingRendered
    | BarView(vizParameters: seq<Overlay>)
    | ScatterView(vizParameter: string, showAdditionalText: bool)

  /** A bar chart receives the offered overlays; a scatter chart receives its field;
      an unknown identifier renders nothing. */
  function RenderChart(visualization: string, options: seq<string>, enabled: set<string>): (v: ChartView)
    ensures v.NothingRendered? <==> visualization !in ChartIds
    ensures v.BarView? ==> v.vizParameters == OverlayOptions(options, enabled)
    ensures v.ScatterView? ==> v.vizParameter != "" && v.vizParameter == ChartConfigFor(visualization).vizParameter
    ensures v.ScatterView? && v.showAdditionalText <==> visualization == "seatShareChart"
  {
    var c := ChartConfigFor(visualization);
    match c.chartType
    case BarChart => BarView(OverlayOptions(options, enabled))
    case PartyScatterChart => ScatterView(c.vizParameter, c.showAdditionalText)
    case NoChart => NothingRendered
  }
}

=== FILE: color.dfy ===
/** The colour interpolator: `getColorFromRatio` and the two continuous colour
    functions built on it (DataVizWrapper.js lines 27-68). Colours are the
    six-digit hexadecimal strings the source passes around without a leading '#';
    results carry the '#'. Arithmetic is exact: `Math.ceil` is the ceiling of a real. */
module Color {
  import opened Hex
  import opened Values

  /** Fully transparent colour used for "no value" (line 10). */
  const DefaultColor: string := "#FFFFFF00"
  /** Sentinel the diverging scale returns for a falsy value (line 57). */
  const NoDataColor: string := "#33ccff"
  const White: string := "ffffff"

  /** A colour as the source's callers pass it: six hexadecimal digits, no '#'. */
  predicate IsHexColor(c: string) {
    |c| == 6 && forall i :: 0 <= i < 6 ==> IsHexChar(c[i])
  }

  /** A colour as the interpolator returns it: '#' and six lower-case digits. */
  predicate IsEncodedColor(s: string) {
    |s| == 7 && s[0] == '#' && forall i :: 1 <= i < 7 ==> IsLowerHexChar(s[i])
  }

  datatype Rgb = Rgb(r: int, g: int, b: int)

  predicate IsByte(x: int) {
    0 <= x <= 255
  }

  predicate IsRgb(c: Rgb) {
    IsByte(c.r) && IsByte(c.g) && IsByte(c.b)
  }

  predicate InRange(x: int, a: int, b: int) {
    (a <= x <= b) || (b <= x <= a)
  }

  /** Every channel of `c` lies between the same channels of `a` and `b`. */
  predicate Between(c: Rgb, a: Rgb, b: Rgb) {
    InRange(c.r, a.r, b.r) && InRange(c.g, a.g, b.g) && InRange(c.b, a.b, b.b)
  }

  function ParseRgb(c: string): (rgb: Rgb)
    requires IsHexColor(c)
    ensures IsRgb(rgb)
  {
    Rgb(ParseHexPair(c[0..2]), ParseHexPair(c[2..4]), ParseHexPair(c[4..6]))
  }

  function DecodeColor(s: string): (rgb: Rgb)
    requires IsEncodedColor(s)
    ensures IsRgb(rgb)
  {
    ParseRgb(s[1..])
  }

  function Encode(c: Rgb): string {
    "#" + HexByte(c.r) + HexByte(c.g) + HexByte(c.b)
  }

  /** `Math.ceil` on an exact real. */
  function Ceil(x: real): (n: int)
    ensures x <= n as real < x + 1.0
  {
    -((-x).Floor)
  }

  /** One channel of the blend: `ceil(hi * ratio + lo * (1 - ratio))`. */
  function Mix(lo: int, hi: int, ratio: real): int {
    Ceil(hi as real * ratio + lo as real * (1.0 - ratio))
  }

  function Blend(ratio: real, lo: Rgb, hi: Rgb): Rgb {
    Rgb(Mix(lo.r, hi.r, ratio), Mix(lo.g, hi.g, ratio), Mix(lo.b, hi.b, ratio))
  }

  /** `c` is the least integer at or above the weighted mean of `lo` and `hi`
      that gives `hi` the weight `ratio`. */
  predicate CeilMix(c: int, lo: int, hi: int, ratio: real) {
    var mean := hi as real * ratio + lo as real * (1.0 - ratio);
    mean <= c as real < mean + 1.0
  }

  /** Every channel of `c` is the rounded-up mix of the same channels of `lo` and `hi`. */
  predicate IsCeilBlend(c: Rgb, ratio: real, lo: Rgb, hi: Rgb) {
    CeilMix(c.r, lo.r, hi.r, ratio) && CeilMix(c.g, lo.g, hi.g, ratio) && CeilMix(c.b, lo.b, hi.b, ratio)
  }

  /** `getColorFromRatio(ratio, minColor, maxColor)`: ratio 0 gives `minColor`,
      ratio 1 gives `maxColor`, and a ratio in between gives every channel the
      rounded-up weighted mean of the endpoints' channels. */
  function GetColorFromRatio(ratio: real, minColor: string, maxColor: string): (s: string)
    requires IsHexColor(minColor) && IsHexColor(maxColor)
    ensures 0.0 <= ratio <= 1.0 ==>
      IsEncodedColor(s) && Between(DecodeColor(s), ParseRgb(minColor), ParseRgb(maxColor))
    ensures 0.0 <= ratio <= 1.0 ==>
      IsEncodedColor(s) && IsCeilBlend(DecodeColor(s), ratio, ParseRgb(minColor), ParseRgb(maxColor))
    ensures ratio == 0.0 ==> s == "#" + Lower(minColor)
    ensures ratio == 1.0 ==> s == "#" + Lower(maxColor)
  {
    var c := Blend(ratio, ParseRgb(minColor), ParseRgb(maxColor));
    if 0.0 <= ratio <= 1.0 then
      BlendEncoded(ratio, ParseRgb(minColor), ParseRgb(maxColor));
      EndsEncoded(ratio, minColor, maxColor);
      Encode(c)
    else Encode(c)
  }

  /** Every channel of a blend is the rounded-up mix of the endpoints' channels. */
  lemma BlendIsCeilBlend(ratio: real, lo: Rgb, hi: Rgb)
    ensures IsCeilBlend(Blend(ratio, lo, hi), ratio, lo, hi)
  {
  }

  /** The encoded blend of two byte colours at a ratio in [0, 1] is a well-formed
      colour that decodes to the blend. */
  lemma BlendEncoded(ratio: real, lo: Rgb, hi: Rgb)
    requires 0.0 <= ratio <= 1.0 && IsRgb(lo) && IsRgb(hi)
    ensures var s := Encode(Blend(ratio, lo, hi));
      IsEncodedColor(s) && Between(DecodeColor(s), lo, hi) && IsCeilBlend(DecodeColor(s), ratio, lo, hi)
  {
    BlendBetween(ratio, lo, hi);
    EncodeDecode(Blend(ratio, lo, hi));
    BlendIsCeilBlend(ratio, lo, hi);
  }

  /** The encoded blends at ratios 0 and 1 are the endpoints, lower-cased. */
  lemma EndsEncoded(ratio: real, minColor: string, maxColor: string)
    requires IsHexColor(minColor) && IsHexColor(maxColor)
    ensures ratio == 0.0 ==> Encode(Blend(ratio, ParseRgb(minColor), ParseRgb(maxColor))) == "#" + Lower(minColor)
    ensures ratio == 1.0 ==> Encode(Blend(ratio, ParseRgb(minColor), ParseRgb(maxColor))) == "#" + Lower(maxColor)
  {
    MixEnds(ParseRgb(minColor), ParseRgb(maxColor));
    if ratio == 0.0 {
      EncodeParsed(minColor);
    } else if ratio == 1.0 {
      EncodeParsed(maxColor);
    }
  }

  /** `getColorForContinuous`: a falsy value is transparent; any other value is a
      percentage placed on the `minColor`-to-`maxColor` gradient. */
  function GetColorForContinuous(minColor: string, maxColor: string, v: Value): (s: string)
    requires IsHexColor(minColor) && IsHexColor(maxColor)
    requires !v.Text?
    ensures Falsy(v) <==> s == DefaultColor
    ensures !Falsy(v) ==> s == GetColorFromRatio(v.x / 100.0, minColor, maxColor)
    ensures !Falsy(v) && 0.0 < v.x <= 100.0 ==>
      IsEncodedColor(s) && Between(DecodeColor(s), ParseRgb(minColor), ParseRgb(maxColor))
    ensures !Falsy(v) && 0.0 < v.x <= 100.0 ==>
      IsEncodedColor(s) && IsCeilBlend(DecodeColor(s), v.x / 100.0, ParseRgb(minColor), ParseRgb(maxColor))
    ensures v == Num(100.0) ==> s == "#" + Lower(maxColor)
  {
    if Truthy(v) then
      var s := GetColorFromRatio(v.x / 100.0, minColor, maxColor);
      assert s != DefaultColor by { NotDefault(v.x / 100.0, minColor, maxColor); }
      s
    else DefaultColor
  }

  /** `getColorForContinuousNormalized`: a diverging scale with white at zero.
      Positive values shade from white towards `maxColor` by `v / max`; negative
      values shade from `minColor` towards white by `(v - min) / -min`. The caller
      passes the extremes of the column the value comes from. */
  function GetColorForContinuousNormalized(min: real, max: real, minColor: string, maxColor: string, v: Value): (s: string)
    requires IsHexColor(minColor) && IsHexColor(maxColor)
    requires !v.Text?
    requires Truthy(v) ==> min <= v.x <= max
    ensures Falsy(v) ==> s == NoDataColor
    ensures Truthy(v) && v.x > 0.0 ==>
      IsEncodedColor(s) && Between(DecodeColor(s), ParseRgb(White), ParseRgb(maxColor))
    ensures Truthy(v) && v.x < 0.0 ==>
      IsEncodedColor(s) && Between(DecodeColor(s), ParseRgb(minColor), ParseRgb(White))
    ensures Truthy(v) && v.x > 0.0 ==>
      IsEncodedColor(s) && IsCeilBlend(DecodeColor(s), v.x / max, ParseRgb(White), ParseRgb(maxColor))
    ensures Truthy(v) && v.x < 0.0 ==>
      IsEncodedColor(s) && IsCeilBlend(DecodeColor(s), (v.x - min) / -min, ParseRgb(minColor), ParseRgb(White))
    ensures Truthy(v) && 0.0 < v.x == max ==> s == "#" + Lower(maxColor)
    ensures Truthy(v) && min == v.x < 0.0 ==> s == "#" + Lower(minColor)
  {
    if Falsy(v) then NoDataColor
    else if v.x >= 0.0 then
      var ratio := v.x / max;
      UnitRatio(v.x, max);
      assert 0.0 <= ratio <= 1.0 && (v.x == max ==> ratio == 1.0);
      GetColorFromRatio(ratio, White, maxColor)
    else
      var ratio := (v.x - min) / -min;
      UnitRatio(v.x - min, -min);
      assert 0.0 <= ratio <= 1.0 && (v.x == min ==> ratio == 0.0);
      GetColorFromRatio(ratio, minColor, White)
  }

  /** A part of a positive whole is a ratio in [0, 1]; 0 and the whole are its ends. */
  lemma UnitRatio(part: real, whole: real)
    requires 0.0 <= part <= whole && whole > 0.0
    ensures 0.0 <= part / whole <= 1.0
    ensures part == whole ==> part / whole == 1.0
    ensures part == 0.0 ==> part / whole == 0.0
  {
  }

  lemma MixEnds(lo: Rgb, hi: Rgb)
    ensures Blend(0.0, lo, hi) == lo
    ensures Blend(1.0, lo, hi) == hi
  {
  }

  /** A ratio in [0, 1] keeps every channel between the two endpoints. */
  lemma MixBetween(lo: int, hi: int, ratio: real)
    requires 0.0 <= ratio <= 1.0
    ensures InRange(Mix(lo, hi, ratio), lo, hi)
  {
    var d := (hi - lo) as real;
    var v := hi as real * ratio + lo as real * (1.0 - ratio);
    assert v == lo as real + d * ratio;
    ScaleWithin(d, ratio);
  }

  /** Scaling by a ratio in [0, 1] stays between 0 and the scaled amount. */
  lemma ScaleWithin(d: real, t: real)
    requires 0.0 <= t <= 1.0
    ensures 0.0 <= d ==> 0.0 <= d * t <= d
    ensures d < 0.0 ==> d <= d * t <= 0.0
  {
    assert d - d * t == d * (1.0 - t);
    if d < 0.0 {
      assert (-d) * t >= 0.0;
      assert (-d) * (1.0 - t) >= 0.0;
    } else {
      assert d * (1.0 - t) >= 0.0;
    }
  }

  lemma BlendBetween(ratio: real, lo: Rgb, hi: Rgb)
    requires 0.0 <= ratio <= 1.0
    requires IsRgb(lo) && IsRgb(hi)
    ensures Between(Blend(ratio, lo, hi), lo, hi) && IsRgb(Blend(ratio, lo, hi))
  {
    MixBetween(lo.r, hi.r, ratio);
    MixBetween(lo.g, hi.g, ratio);
    MixBetween(lo.b, hi.b, ratio);
  }

  /** Encoding a colour of bytes gives a well-formed colour that decodes back to it. */
  lemma EncodeDecode(c: Rgb)
    requires IsRgb(c)
    ensures IsEncodedColor(Encode(c)) && DecodeColor(Encode(c)) == c
  {
    var s := Encode(c);
    var a, b, d := HexByte(c.r), HexByte(c.g), HexByte(c.b);
    assert |a| == 2 && |b| == 2 && |d| == 2;
    var t := s[1..];
    assert t == a + b + d;
    assert t[0..2] == a;
    assert t[2..4] == b;
    assert t[4..6] == d;
    assert s[1..][0..2] == a;
    assert s[1..][2..4] == b;
    assert s[1..][4..6] == d;
  }

  /** Re-encoding a parsed colour lower-cases it. */
  lemma EncodeParsed(c: string)
    requires IsHexColor(c)
    ensures Encode(ParseRgb(c)) == "#" + Lower(c)
  {
    ParsedChannels(c);
    LowerThirds(c);
  }

  /** Each parsed channel prints back as its two digits, lower-cased. */
  lemma ParsedChannels(c: string)
    requires IsHexColor(c)
    ensures HexByte(ParseRgb(c).r) == Lower(c[0..2])
    ensures HexByte(ParseRgb(c).g) == Lower(c[2..4])
    ensures HexByte(ParseRgb(c).b) == Lower(c[4..6])
  {
    PairRoundTrip(c[0..2]);
    PairRoundTrip(c[2..4]);
    PairRoundTrip(c[4..6]);
  }

  lemma LowerThirds(c: string)
    requires |c| == 6
    ensures Lower(c) == Lower(c[0..2]) + Lower(c[2..4]) + Lower(c[4..6])
  {
    assert c == c[0..2] + c[2..4] + c[4..6];
    LowerAppend(c[0..2], c[2..4]);
    LowerAppend(c[0..2] + c[2..4], c[4..6]);
  }

  lemma LowerAppend(x: string, y: string)
    ensures Lower(x + y) == Lower(x) + Lower(y)
  {
  }

  lemma NotDefault(ratio: real, minColor: string, maxColor: string)
    requires IsHexColor(minColor) && IsHexColor(maxColor)
    ensures GetColorFromRatio(ratio, minColor, maxColor) != DefaultColor
  {
    var s := GetColorFromRatio(ratio, minColor, maxColor);
    var c := Blend(ratio, ParseRgb(minColor), ParseRgb(maxColor));
    assert s == Encode(c);
    assert s[1] == HexByte(c.r)[0];
  }

  /** A tenth of the way from white to the normal map's blue. The exact channel
      means are 230, 240.7 and 247.1; rounding up gives 230, 241 and 248, where
      rounding to nearest would have given a blue channel of 247 ("f7"). */
  lemma CeilExample()
    ensures GetColorForContinuous("ffffff", "0570b0", Num(10.0)) == "#e6f1f8"
  {
    assert ParseRgb("ffffff") == Rgb(255, 255, 255);
    assert ParseRgb("0570b0") == Rgb(5, 112, 176);
    assert Blend(0.1, Rgb(255, 255, 255), Rgb(5, 112, 176)) == Rgb(230, 241, 248);
    assert HexByte(230) == "e6" && HexByte(241) == "f1" && HexByte(248) == "f8";
  }
}

=== FILE: display.dfy ===
/** The display-string helpers of `render` (DataVizWrapper.js lines 107-108) and the
    two underscore rewrites the chart overlays use (lines 441 and 447). */
module Display {

  /** Every underscore removed (the overlay filter's option names, line 441). */
  function StripUnderscores(s: string): (r: string)
    ensures '_' !in r
    ensures forall c :: c != '_' ==> multiset(r)[c] == multiset(s)[c]
    ensures |r| == |s| - multiset(s)['_']
    decreases |s|
  {
    if |s| == 0 then ""
    else
      assert s == [s[0]] + s[1..];
      (if s[0] == '_' then "" else [s[0]]) + StripUnderscores(s[1..])
  }

  /** Every underscore turned into a space (overlay labels, line 447; state names, line 108). */
  function SpaceUnderscores(s: string): (r: string)
    ensures |r| == |s|
    ensures forall i :: 0 <= i < |s| ==> r[i] == (if s[i] == '_' then ' ' else s[i])
    ensures '_' !in r
  {
    seq(|s|, i requires 0 <= i < |s| => if s[i] == '_' then ' ' else s[i])
  }

  /** Stripping distributes over concatenation, so it keeps the order of what it keeps. */
  lemma {:induction false} StripAppend(a: string, b: string)
    ensures StripUnderscores(a + b) == StripUnderscores(a) + StripUnderscores(b)
    decreases |a|
  {
    if |a| > 0 {
      assert (a + b)[0] == a[0] && (a + b)[1..] == a[1..] + b;
      StripAppend(a[1..], b);
      var head := if a[0] == '_' then "" else [a[0]];
      assert StripUnderscores(a + b) == head + (StripUnderscores(a[1..]) + StripUnderscores(b));
      assert StripUnderscores(a) == head + StripUnderscores(a[1..]);
    } else {
      assert a + b == b;
    }
  }

  /** A string without underscores is left as it is; so stripping twice is stripping once. */
  lemma {:induction false} StripIdentity(s: string)
    requires '_' !in s
    ensures StripUnderscores(s) == s
    decreases |s|
  {
    if |s| > 0 {
      assert s == [s[0]] + s[1..];
      assert '_' !in s[1..];
      StripIdentity(s[1..]);
      assert StripUnderscores(s) == [s[0]] + StripUnderscores(s[1..]);
    }
  }

  /** The house name shown for an election type: general elections are Lok Sabha
      elections, all others Vidhan Sabha elections. */
  function ElectionTypeDisplay(electionType: string): (r: string)
    ensures r == "Lok Sabha" <==> electionType == "GE"
    ensures r == "Vidhan Sabha" <==> electionType != "GE"
  {
    if electionType == "GE" then "Lok Sabha" else "Vidhan Sabha"
  }

  /** The national "state" displays as nothing; any other state name is shown with
      its underscores turned into spaces. */
  function StateNameDisplay(stateName: string): (r: string)
    ensures stateName == "Lok_Sabha" ==> r == ""
    ensures stateName != "Lok_Sabha" ==> |r| == |stateName| && '_' !in r
    ensures stateName != "Lok_Sabha" ==> forall i :: 0 <= i < |r| && stateName[i] != '_' ==> r[i] == stateName[i]
    ensures stateName != "Lok_Sabha" ==> forall i :: 0 <= i < |r| && stateName[i] == '_' ==> r[i] == ' '
  {
    if stateName == "Lok_Sabha" then "" else SpaceUnderscores(stateName)
  }
}

=== FILE: hex.dfy ===
/** Hexadecimal digits, JavaScript's `Number.prototype.toString(16)` on integers,
    two-digit channel parsing (`parseInt(s, 16)` on a two-character slice) and the
    zero-padding `hex` helper of the colour interpolator. */
module Hex {

  predicate IsHexChar(c: char) {
    '0' <= c <= '9' || 'a' <= c <= 'f' || 'A' <= c <= 'F'
  }

  predicate IsLowerHexChar(c: char) {
    '0' <= c <= '9' || 'a' <= c <= 'f'
  }

  /** Value of one hexadecimal digit, either case. */
  function DigitValue(c: char): (d: nat)
    requires IsHexChar(c)
    ensures d < 16
  {
    if '0' <= c <= '9' then c as int - '0' as int
    else if 'a' <= c <= 'f' then c as int - 'a' as int + 10
    else c as int - 'A' as int + 10
  }

  /** The lower-case digit JavaScript prints for a value below 16. */
  function DigitChar(d: nat): (c: char)
    requires d < 16
    ensures IsLowerHexChar(c) && DigitValue(c) == d
  {
    if d < 10 then ('0' as int + d) as char else ('a' as int + d - 10) as char
  }

  function LowerChar(c: char): char {
    if 'A' <= c <= 'Z' then (c as int + 32) as char else c
  }

  function Lower(s: string): (t: string)
    ensures |t| == |s| && forall i :: 0 <= i < |s| ==> t[i] == LowerChar(s[i])
  {
    seq(|s|, i requires 0 <= i < |s| => LowerChar(s[i]))
  }

  /** `n.toString(16)` for a non-negative integer: no leading zeros, "0" for zero. */
  function ToHexNat(n: nat): (s: string)
    ensures |s| >= 1
    ensures forall i :: 0 <= i < |s| ==> IsLowerHexChar(s[i])
    decreases n
  {
    if n < 16 then [DigitChar(n)] else ToHexNat(n / 16) + [DigitChar(n % 16)]
  }

  /** The number a string of hexadecimal digits denotes, most significant first. */
  function HexValue(d: string): nat
    requires forall i :: 0 <= i < |d| ==> IsHexChar(d[i])
    decreases |d|
  {
    if |d| == 0 then 0 else 16 * HexValue(d[..|d| - 1]) + DigitValue(d[|d| - 1])
  }

  /** `d` is how JavaScript prints `n` in base 16: lower-case digits, denoting `n`,
      with no leading zero unless `n` is zero. */
  predicate PrintsAs(d: string, n: nat) {
    && |d| >= 1
    && (forall i :: 0 <= i < |d| ==> IsLowerHexChar(d[i]))
    && HexValue(d) == n
    && (|d| > 1 ==> d[0] != '0')
  }

  lemma {:induction false} ToHexNatPrints(n: nat)
    ensures PrintsAs(ToHexNat(n), n)
    decreases n
  {
    var d := ToHexNat(n);
    if n >= 16 {
      ToHexNatPrints(n / 16);
      var p := ToHexNat(n / 16);
      assert d == p + [DigitChar(n % 16)];
      assert d[..|d| - 1] == p;
      assert d[0] == p[0];
      if |p| == 1 {
        assert p[0] != '0' by {
          assert DigitValue(p[0]) == n / 16;
        }
      }
    }
  }

  /** `x.toString(16)` for any integer: a minus sign precedes the magnitude's digits. */
  function ToRadix16(x: int): string {
    if x < 0 then "-" + ToHexNat(-x) else ToHexNat(x)
  }

  /** What `ToRadix16` prints: the base-16 numeral of `x`, signed when `x` is negative. */
  lemma ToRadix16Prints(x: int)
    ensures x >= 0 ==> PrintsAs(ToRadix16(x), x)
    ensures x < 0 ==> var s := ToRadix16(x); |s| >= 2 && s[0] == '-' && PrintsAs(s[1..], -x)
  {
    if x < 0 {
      ToHexNatPrints(-x);
      assert ToRadix16(x)[1..] == ToHexNat(-x);
    } else {
      ToHexNatPrints(x);
    }
  }

  /** Parses a two-character hexadecimal slice, as `parseInt(c.substring(k, k + 2), 16)`. */
  function ParseHexPair(s: string): (n: nat)
    requires |s| == 2 && IsHexChar(s[0]) && IsHexChar(s[1])
    ensures n < 256
  {
    16 * DigitValue(s[0]) + DigitValue(s[1])
  }

  /** The interpolator's `hex` helper: 256 is clamped to "ff"; any other value is
      printed in base 16 and a single digit is padded with a leading zero. */
  function HexByte(x: int): (s: string)
    ensures 0 <= x <= 256 ==> |s| == 2 && IsLowerHexChar(s[0]) && IsLowerHexChar(s[1])
    ensures 0 <= x <= 255 ==> ParseHexPair(s) == x
    ensures x == 256 ==> ParseHexPair(s) == 255
    ensures x < 0 ==> |s| >= 2 && s[0] == '-'
    ensures x > 256 ==> |s| >= 3
    ensures |s| >= 2 && forall i :: 0 <= i < |s| ==> s[i] == '-' || IsLowerHexChar(s[i])
  {
    if x == 256 then "ff"
    else
      var t := ToRadix16(x);
      ToHexNatLength(if x < 0 then -x else x);
      assert 16 <= x < 256 ==> t == [DigitChar(x / 16)] + [DigitChar(x % 16)];
      if |t| == 1 then "0" + t else t
  }

  lemma {:induction false} ToHexNatLength(n: nat)
    ensures n < 16 <==> |ToHexNat(n)| == 1
    ensures 16 <= n < 256 <==> |ToHexNat(n)| == 2
    ensures 256 <= n <==> |ToHexNat(n)| >= 3
  {
    if n >= 16 {
      ToHexNatLength(n / 16);
    }
  }

  lemma DigitCharOfValue(c: char)
    requires IsHexChar(c)
    ensures DigitChar(DigitValue(c)) == LowerChar(c)
  {
  }

  /** Parsing then printing a channel gives back its two digits, lower-cased. */
  lemma PairRoundTrip(s: string)
    requires |s| == 2 && IsHexChar(s[0]) && IsHexChar(s[1])
    ensures HexByte(ParseHexPair(s)) == Lower(s)
  {
    var a, b := DigitValue(s[0]), DigitValue(s[1]);
    var n := ParseHexPair(s);
    DigitCharOfValue(s[0]);
    DigitCharOfValue(s[1]);
    if a == 0 {
      assert n == b;
      assert HexByte(n) == "0" + [DigitChar(b)];
      assert LowerChar(s[0]) == '0';
    } else {
      assert n / 16 == a && n % 16 == b;
      assert ToHexNat(n) == [DigitChar(a)] + [DigitChar(b)];
    }
  }
}

=== FILE: legends.dfy ===
/** Discrete legends: ordered (bucket key, count) pairs, the counting object the
    source accumulates them in, and the two orderings it emits (a fixed key order,
    and descending count). */
module Legends {

  /** An ordered legend: bucket key and the number of records counted in it. */
  type Legend = seq<(string, nat)>

  function KeysOf(l: Legend): (ks: seq<string>)
    ensures |ks| == |l| && forall i :: 0 <= i < |l| ==> ks[i] == l[i].0
  {
    seq(|l|, i requires 0 <= i < |l| => l[i].0)
  }

  /** Sum of the counts of a legend. */
  function Total(l: Legend): nat {
    if |l| == 0 then 0 else l[0].1 + Total(l[1..])
  }

  predicate Distinct(xs: seq<string>) {
    forall i, j :: 0 <= i < j < |xs| ==> xs[i] != xs[j]
  }

  /** Counts never increase along the legend. */
  predicate NonIncreasing(l: Legend) {
    forall i, j :: 0 <= i < j < |l| ==> l[i].1 >= l[j].1
  }

  /** `a` is `b` with some elements left out, order kept. */
  predicate IsSubsequence(a: seq<string>, b: seq<string>)
    decreases |b|
  {
    if |a| == 0 then true
    else if |b| == 0 then false
    else (a[0] == b[0] && IsSubsequence(a[1..], b[1..])) || IsSubsequence(a, b[1..])
  }

  /** The count the object holds for `k`, 0 when the key was never set. */
  function Lookup(counts: map<string, nat>, k: string): nat {
    if k in counts then counts[k] else 0
  }

  /** One increment of the counting object: an unset key starts at 1, a set key
      goes up by one. */
  function Bump(counts: map<string, nat>, k: string): (m: map<string, nat>)
    ensures m.Keys == counts.Keys + {k}
    ensures Lookup(m, k) == Lookup(counts, k) + 1
    ensures forall j :: j != k ==> Lookup(m, j) == Lookup(counts, j)
  {
    counts[k := Lookup(counts, k) + 1]
  }

  /** Sum of the counts the object holds for `keys`. */
  function SumOver(keys: seq<string>, counts: map<string, nat>): nat {
    if |keys| == 0 then 0 else Lookup(counts, keys[0]) + SumOver(keys[1..], counts)
  }

  lemma {:induction false} SumOverEmpty(keys: seq<string>)
    ensures SumOver(keys, map[]) == 0
    decreases |keys|
  {
    if |keys| > 0 {
      SumOverEmpty(keys[1..]);
    }
  }

  /** The legend read off the counting object in the order `keys`, keeping only
      keys whose count is truthy (non-zero). */
  function Emit(keys: seq<string>, counts: map<string, nat>): (l: Legend)
    ensures IsSubsequence(KeysOf(l), keys)
    ensures forall i :: 0 <= i < |l| ==> l[i].1 == Lookup(counts, l[i].0) && l[i].1 > 0
    ensures forall k :: k in keys && Lookup(counts, k) > 0 ==> k in KeysOf(l)
    ensures Total(l) == SumOver(keys, counts)
    decreases |keys|
  {
    if |keys| == 0 then []
    else
      var rest := Emit(keys[1..], counts);
      var k := keys[0];
      if Lookup(counts, k) > 0 then
        assert KeysOf([(k, Lookup(counts, k))] + rest) == [k] + KeysOf(rest);
        [(k, Lookup(counts, k))] + rest
      else rest
  }

  /** Emitting distinct keys gives a legend with distinct keys. */
  lemma {:induction false} EmitDistinct(keys: seq<string>, counts: map<string, nat>)
    requires Distinct(keys)
    ensures Distinct(KeysOf(Emit(keys, counts)))
    ensures forall k :: k in KeysOf(Emit(keys, counts)) ==> k in keys
    decreases |keys|
  {
    if |keys| > 0 {
      EmitDistinct(keys[1..], counts);
      var k := keys[0];
      var rest := Emit(keys[1..], counts);
      assert keys == [k] + keys[1..];
      assert k !in KeysOf(rest) by {
        assert k !in keys[1..];
      }
      if Lookup(counts, k) > 0 {
        KeysOfCons((k, Lookup(counts, k)), rest);
        DistinctCons(k, KeysOf(rest));
      }
    }
  }

  lemma DistinctCons(k: string, xs: seq<string>)
    requires Distinct(xs) && k !in xs
    ensures Distinct([k] + xs)
  {
    var ys := [k] + xs;
    forall i, j | 0 <= i < j < |ys|
      ensures ys[i] != ys[j]
    {
      assert ys[j] == xs[j - 1];
      if i > 0 {
        assert ys[i] == xs[i - 1];
      }
    }
  }

  /** Bumping one of distinct keys raises their sum by one. */
  lemma {:induction false} SumOverBump(keys: seq<string>, counts: map<string, nat>, k: string)
    requires Distinct(keys)
    ensures SumOver(keys, Bump(counts, k)) == SumOver(keys, counts) + (if k in keys then 1 else 0)
    decreases |keys|
  {
    if |keys| > 0 {
      SumOverBump(keys[1..], counts, k);
      assert k in keys <==> k == keys[0] || k in keys[1..];
    }
  }

  /** Putting a pair into a non-increasing legend, ahead of every pair whose count
      is not larger: the insertion step of a stable descending sort. */
  function Insert(p: (string, nat), l: Legend): (r: Legend)
    requires NonIncreasing(l)
    ensures NonIncreasing(r)
    ensures multiset(r) == multiset(l) + multiset{p}
    decreases |l|
  {
    if |l| == 0 || l[0].1 <= p.1 then [p] + l
    else
      var rest := Insert(p, l[1..]);
      assert l == [l[0]] + l[1..];
      assert forall i :: 0 <= i < |rest| ==> rest[i].1 <= l[0].1 by {
        forall i | 0 <= i < |rest|
          ensures rest[i].1 <= l[0].1
        {
          assert rest[i] in multiset(rest);
          if rest[i] != p {
            assert rest[i] in l[1..];
          }
        }
      }
      [l[0]] + rest
  }

  lemma KeysOfCons(x: (string, nat), l: Legend)
    ensures KeysOf([x] + l) == [x.0] + KeysOf(l)
  {
  }

  /** Inserting a pair adds its key to the legend's keys. */
  lemma {:induction false} InsertKeys(p: (string, nat), l: Legend)
    requires NonIncreasing(l)
    ensures multiset(KeysOf(Insert(p, l))) == multiset(KeysOf(l)) + multiset{p.0}
    decreases |l|
  {
    if |l| == 0 || l[0].1 <= p.1 {
      KeysOfCons(p, l);
    } else {
      InsertKeys(p, l[1..]);
      assert l == [l[0]] + l[1..];
      KeysOfCons(l[0], l[1..]);
      KeysOfCons(l[0], Insert(p, l[1..]));
    }
  }

  /** Inserting a pair adds its count to the legend's total. */
  lemma {:induction false} InsertTotal(p: (string, nat), l: Legend)
    requires NonIncreasing(l)
    ensures Total(Insert(p, l)) == Total(l) + p.1
    decreases |l|
  {
    if |l| == 0 || l[0].1 <= p.1 {
      assert ([p] + l)[1..] == l;
    } else {
      var rest := Insert(p, l[1..]);
      InsertTotal(p, l[1..]);
      assert ([l[0]] + rest)[1..] == rest;
    }
  }

  /** The key sort of the categorical legend: by descending count, stable, so
      pairs with equal counts keep their order (`SortStable`). */
  function SortByCountDesc(l: Legend): (r: Legend)
    ensures NonIncreasing(r)
    ensures multiset(r) == multiset(l)
    ensures multiset(KeysOf(r)) == multiset(KeysOf(l))
    ensures Total(r) == Total(l)
    decreases |l|
  {
    if |l| == 0 then []
    else
      assert l == [l[0]] + l[1..];
      KeysOfCons(l[0], l[1..]);
      var sorted := SortByCountDesc(l[1..]);
      InsertKeys(l[0], sorted);
      InsertTotal(l[0], sorted);
      Insert(l[0], sorted)
  }

  /** The pairs of a legend whose count is `n`, in legend order. */
  function WithCount(l: Legend, n: nat): Legend
    decreases |l|
  {
    if |l| == 0 then []
    else (if l[0].1 == n then [l[0]] else []) + WithCount(l[1..], n)
  }

  lemma WithCountCons(x: (string, nat), l: Legend, n: nat)
    ensures WithCount([x] + l, n) == (if x.1 == n then [x] else []) + WithCount(l, n)
  {
    assert ([x] + l)[1..] == l;
  }

  /** Inserting a pair puts it ahead of every pair of its own count and changes
      nothing else among pairs of equal count. */
  lemma {:induction false} InsertWithCount(p: (string, nat), l: Legend, n: nat)
    requires NonIncreasing(l)
    ensures WithCount(Insert(p, l), n) == (if p.1 == n then [p] else []) + WithCount(l, n)
    decreases |l|
  {
    if |l| == 0 || l[0].1 <= p.1 {
      WithCountCons(p, l, n);
    } else {
      assert l == [l[0]] + l[1..];
      InsertWithCount(p, l[1..], n);
      WithCountCons(l[0], Insert(p, l[1..]), n);
      WithCountCons(l[0], l[1..], n);
    }
  }

  /** The sort is stable: among pairs of equal count the order is the input's. */
  lemma {:induction false} SortStable(l: Legend)
    ensures forall n :: WithCount(SortByCountDesc(l), n) == WithCount(l, n)
    decreases |l|
  {
    if |l| > 0 {
      SortStable(l[1..]);
      assert l == [l[0]] + l[1..];
      forall n
        ensures WithCount(SortByCountDesc(l), n) == WithCount(l, n)
      {
        InsertWithCount(l[0], SortByCountDesc(l[1..]), n);
        WithCountCons(l[0], l[1..], n);
      }
    }
  }

  /** Every key of `l` is ranked and the ranks strictly increase along `l`. */
  ghost predicate Ranked(l: Legend, rank: map<string, int>) {
    && (forall i :: 0 <= i < |l| ==> l[i].0 in rank)
    && (forall i, j :: 0 <= i < j < |l| ==> rank[l[i].0] < rank[l[j].0])
  }

  /** Every key of `l` is ranked, and among pairs of equal count the ranks
      strictly increase along `l`. */
  ghost predicate TiesRanked(l: Legend, rank: map<string, int>) {
    && (forall i :: 0 <= i < |l| ==> l[i].0 in rank)
    && (forall i, j :: 0 <= i < j < |l| && l[i].1 == l[j].1 ==> rank[l[i].0] < rank[l[j].0])
  }

  /** Inserting a pair ranked ahead of every pair already present keeps equal
      counts in rank order. */
  lemma {:induction false} InsertTiesRanked(p: (string, nat), l: Legend, rank: map<string, int>)
    requires NonIncreasing(l) && TiesRanked(l, rank)
    requires p.0 in rank && forall i :: 0 <= i < |l| ==> rank[p.0] < rank[l[i].0]
    ensures TiesRanked(Insert(p, l), rank)
    decreases |l|
  {
    if |l| == 0 || l[0].1 <= p.1 {
      assert Insert(p, l) == [p] + l;
      ConsTiesRanked(p, l, rank);
    } else {
      TiesRankedTail(p, l, rank);
      InsertTiesRanked(p, l[1..], rank);
      HeadAheadOfTies(p, l, rank);
      var rest := Insert(p, l[1..]);
      ConsTiesRanked(l[0], rest, rank);
      assert l == [l[0]] + l[1..];
      assert Insert(p, l) == [l[0]] + rest;
    }
  }

  lemma TiesRankedTail(p: (string, nat), l: Legend, rank: map<string, int>)
    requires NonIncreasing(l) && TiesRanked(l, rank) && |l| > 0
    requires p.0 in rank && forall i :: 0 <= i < |l| ==> rank[p.0] < rank[l[i].0]
    ensures NonIncreasing(l[1..]) && TiesRanked(l[1..], rank)
    ensures forall i :: 0 <= i < |l[1..]| ==> rank[p.0] < rank[l[1..][i].0]
  {
    assert forall i :: 0 <= i < |l[1..]| ==> l[1..][i] == l[i + 1];
  }

  /** When the head of a legend outranks a pair in count, it stays ahead of every
      pair of its own count after the pair is inserted into the tail. */
  lemma HeadAheadOfTies(p: (string, nat), l: Legend, rank: map<string, int>)
    requires NonIncreasing(l) && TiesRanked(l, rank) && |l| > 0 && l[0].1 > p.1
    ensures NonIncreasing(l[1..]) && l[0].0 in rank
    ensures forall i :: 0 <= i < |Insert(p, l[1..])| && Insert(p, l[1..])[i].1 == l[0].1 ==>
              Insert(p, l[1..])[i].0 in rank && rank[l[0].0] < rank[Insert(p, l[1..])[i].0]
  {
    assert NonIncreasing(l[1..]) by {
      assert forall i :: 0 <= i < |l[1..]| ==> l[1..][i] == l[i + 1];
    }
    var rest := Insert(p, l[1..]);
    forall i | 0 <= i < |rest| && rest[i].1 == l[0].1
      ensures rest[i].0 in rank && rank[l[0].0] < rank[rest[i].0]
    {
      var e := rest[i];
      assert e in multiset(rest);
      assert e != p;
      assert e in multiset(l[1..]);
      var m :| 0 <= m < |l[1..]| && l[1..][m] == e;
      assert l[m + 1] == e;
    }
  }

  /** A pair in front of a legend keeps ties ranked when it is ranked ahead of
      every pair of its own count. */
  lemma ConsTiesRanked(p: (string, nat), l: Legend, rank: map<string, int>)
    requires TiesRanked(l, rank) && p.0 in rank
    requires forall i :: 0 <= i < |l| && l[i].1 == p.1 ==> rank[p.0] < rank[l[i].0]
    ensures TiesRanked([p] + l, rank)
  {
    var r := [p] + l;
    assert forall i :: 1 <= i < |r| ==> r[i] == l[i - 1];
  }

  /** Sorting a legend whose keys are in rank order leaves every run of equal
      counts in rank order. */
  lemma {:induction false} SortTiesRanked(l: Legend, rank: map<string, int>)
    requires Ranked(l, rank)
    ensures TiesRanked(SortByCountDesc(l), rank)
    decreases |l|
  {
    if |l| > 0 {
      RankedTail(l, rank);
      SortTiesRanked(l[1..], rank);
      var sorted := SortByCountDesc(l[1..]);
      HeadRankedFirst(l, sorted, rank);
      InsertTiesRanked(l[0], sorted, rank);
      assert SortByCountDesc(l) == Insert(l[0], sorted);
    }
  }

  lemma RankedTail(l: Legend, rank: map<string, int>)
    requires Ranked(l, rank) && |l| > 0
    ensures Ranked(l[1..], rank)
  {
    assert forall i :: 0 <= i < |l[1..]| ==> l[1..][i] == l[i + 1];
  }

  /** The head of a ranked legend is ranked ahead of every pair of any
      rearrangement of its tail. */
  lemma HeadRankedFirst(l: Legend, s: Legend, rank: map<string, int>)
    requires Ranked(l, rank) && |l| > 0 && multiset(s) == multiset(l[1..])
    ensures forall i :: 0 <= i < |s| ==> s[i].0 in rank && rank[l[0].0] < rank[s[i].0]
  {
    forall i | 0 <= i < |s|
      ensures s[i].0 in rank && rank[l[0].0] < rank[s[i].0]
    {
      assert s[i] in multiset(l[1..]);
      var m :| 0 <= m < |l[1..]| && l[1..][m] == s[i];
      assert l[m + 1] == s[i];
    }
  }

  /** Emitting keys that all have a count lists every one of them, in order. */
  lemma {:induction false} EmitKeys(keys: seq<string>, counts: map<string, nat>)
    requires forall k :: k in keys ==> Lookup(counts, k) > 0
    ensures KeysOf(Emit(keys, counts)) == keys
    decreases |keys|
  {
    if |keys| > 0 {
      EmitKeys(keys[1..], counts);
      assert keys == [keys[0]] + keys[1..];
      KeysOfCons((keys[0], Lookup(counts, keys[0])), Emit(keys[1..], counts));
    }
  }

  /** A sequence without repeats holds each element at most once. */
  lemma {:induction false} DistinctMultiplicity(xs: seq<string>)
    ensures Distinct(xs) <==> forall x :: multiset(xs)[x] <= 1
    decreases |xs|
  {
    if |xs| > 0 {
      DistinctMultiplicity(xs[1..]);
      assert xs == [xs[0]] + xs[1..];
      if Distinct(xs) {
        assert xs[0] !in xs[1..];
      } else {
        var i, j :| 0 <= i < j < |xs| && xs[i] == xs[j];
        if i == 0 {
          assert xs[j] in xs[1..];
          assert multiset(xs)[xs[0]] >= 2;
        } else {
          assert !Distinct(xs[1..]) by {
            assert xs[1..][i - 1] == xs[1..][j - 1];
          }
          var x :| multiset(xs[1..])[x] > 1;
          assert multiset(xs)[x] >= multiset(xs[1..])[x];
        }
      }
    }
  }

  /** Reordering by count keeps keys distinct. */
  lemma SortKeepsDistinct(l: Legend)
    requires Distinct(KeysOf(l))
    ensures Distinct(KeysOf(SortByCountDesc(l)))
  {
    DistinctMultiplicity(KeysOf(l));
    DistinctMultiplicity(KeysOf(SortByCountDesc(l)));
  }
}

=== FILE: maps.dfy ===
/** The map branch of `render` (DataVizWrapper.js lines 110-431): the table from a
    map identifier to the field it shows and how it is coloured, the map and swatch
    colour functions each entry selects, and what the branch hands to the map
    component in the normal and in the change view. */
module Maps {
  import opened Values
  import opened Legends
  import opened Color
  import Palette
  import Threshold
  import Categorical
  import ChangeMap
  import Charts

  datatype LegendType = Unset | Discrete | Continuous

  /** The three fixed colour palettes of the categorical maps. */
  datatype PaletteName = ConstituencyTypes | Genders | Parties

  /** How a map colours its records: not at all (unknown identifier), from a
      palette, by threshold bands, or by a gradient. */
  datatype Coloring = Uncolored | FromPalette(palette: PaletteName) | Banded(scale: Threshold.Scale) | Gradient

  /** What the switch on the map identifier sets, apart from titles. */
  datatype MapConfig = MapConfig(vizParameter: string, vizChangeParameter: string, legendType: LegendType, coloring: Coloring)

  /** The values the map branch starts from, kept for an unknown identifier. */
  const DefaultMap: MapConfig := MapConfig("", "", Unset, Uncolored)

  const MapIds: set<string> := {
    "winnerCasteMap", "numCandidatesMap", "voterTurnoutMap", "winnerGenderMap", "winnerMarginMap",
    "winnerVoteShareMap", "partyVoteShareMap", "partyPositionsMap", "winnerMap", "notaTurnoutMap"
  }

  /** The ten maps. Every known map shows a field; a legend is discrete exactly when
      the map is coloured from a palette or by bands and continuous exactly when it
      is coloured by a gradient; only continuous maps have a change field. */
  function MapConfigFor(visualization: string): (c: MapConfig)
    ensures visualization !in MapIds <==> c == DefaultMap
    ensures visualization in MapIds ==> c.vizParameter != ""
    ensures c.legendType == Continuous <==> c.coloring == Gradient
    ensures c.legendType == Discrete <==> c.coloring.FromPalette? || c.coloring.Banded?
    ensures c.vizChangeParameter != "" ==> c.legendType == Continuous
  {
    match visualization
    case "winnerCasteMap" => MapConfig("Constituency_Type", "", Discrete, FromPalette(ConstituencyTypes))
    case "numCandidatesMap" => MapConfig("N_Cand", "", Discrete, Banded(Threshold.CandidateCount))
    case "voterTurnoutMap" => MapConfig("Turnout_Percentage", "Turnout_Change_pct", Continuous, Gradient)
    case "winnerGenderMap" => MapConfig("Sex", "", Discrete, FromPalette(Genders))
    case "winnerMarginMap" => MapConfig("Margin_Percentage", "Margin_Change_pct", Continuous, Gradient)
    case "winnerVoteShareMap" => MapConfig("Vote_Share_Percentage", "Vote_Share_Change_pct", Continuous, Gradient)
    case "partyVoteShareMap" => MapConfig("Vote_Share_Percentage", "", Continuous, Gradient)
    case "partyPositionsMap" => MapConfig("Position", "", Discrete, Banded(Threshold.PartyPosition))
    case "winnerMap" => MapConfig("Party", "", Discrete, FromPalette(Parties))
    case "notaTurnoutMap" => MapConfig("Nota_Percentage", "", Discrete, Banded(Threshold.NotaShare))
    case _ => DefaultMap
  }

  /** No identifier names both a map and a chart. */
  lemma MapAndChartIdsDisjoint()
    ensures MapIds !! Charts.ChartIds
    ensures forall id :: MapConfigFor(id) == DefaultMap || Charts.ChartConfigFor(id) == Charts.DefaultChart
  {
  }

  /** The palette tables, which live outside this component. */
  datatype Palettes = Palettes(constituencyTypes: seq<Palette.Entry>, genders: seq<Palette.Entry>, parties: seq<Palette.Entry>)

  function PaletteOf(ps: Palettes, name: PaletteName): seq<Palette.Entry> {
    match name
    case ConstituencyTypes => ps.constituencyTypes
    case Genders => ps.genders
    case Parties => ps.parties
  }

  /** The gradient endpoints of the normal and of the change map. */
  datatype ColorCodes = ColorCodes(normalMin: string, normalMax: string, changeMin: string, changeMax: string)

  predicate ValidCodes(codes: ColorCodes) {
    IsHexColor(codes.normalMin) && IsHexColor(codes.normalMax) && IsHexColor(codes.changeMin) && IsHexColor(codes.changeMax)
  }

  /** The values a map's colour function can read: palette maps accept anything,
      banded and gradient maps read numbers. */
  predicate Colorable(c: MapConfig, v: Value) {
    (c.coloring.Banded? || c.coloring.Gradient?) ==> IsNumeric(v)
  }

  /** `getMapColor` of the normal view; None where the map sets no colour function.
      Banded and gradient maps leave falsy values transparent. A palette map gives
      the colour of the first entry matching the value on the map's field, or the
      transparent default when none matches; a banded map gives the colour of the
      value's enabled band, or the default; a gradient map shades a percentage in
      (0, 100] at ratio value/100 between its endpoints. */
  function MapColorFor(c: MapConfig, ps: Palettes, codes: ColorCodes, enabled: set<string>, v: Value): (r: Option<string>)
    requires ValidCodes(codes) && Colorable(c, v)
    ensures r.None? <==> c.coloring.Uncolored?
    ensures r.Some? && !c.coloring.FromPalette? && Falsy(v) ==> r.value == DefaultColor
    ensures c.coloring.FromPalette? ==>
              var p := PaletteOf(ps, c.coloring.palette);
              r.value == DefaultColor || exists i :: 0 <= i < |p| && r.value == p[i].color
    ensures c.coloring.Banded? ==>
              r.value == DefaultColor || exists k :: k in Threshold.Keys(c.coloring.scale) && r.value == Threshold.BandColor(c.coloring.scale, k)
    ensures c.coloring.Gradient? && Truthy(v) && 0.0 < v.x <= 100.0 ==>
              IsEncodedColor(r.value) && Between(DecodeColor(r.value), ParseRgb(codes.normalMin), ParseRgb(codes.normalMax))
    ensures c.coloring.FromPalette? ==>
              var p := PaletteOf(ps, c.coloring.palette);
              && (forall i :: 0 <= i < |p| && Palette.FirstMatch(p, c.vizParameter, v, i) ==> r == Some(p[i].color))
              && ((forall i :: 0 <= i < |p| ==> !Palette.Matches(p[i], c.vizParameter, v)) ==> r == Some(DefaultColor))
    ensures c.coloring.Banded? && Truthy(v) ==>
              r == Some(match Threshold.EnabledBand(c.coloring.scale, v.x, enabled)
                        case Some(k) => Threshold.BandColor(c.coloring.scale, k)
                        case None => DefaultColor)
    ensures c.coloring.Gradient? && Truthy(v) && 0.0 < v.x <= 100.0 ==>
              IsEncodedColor(r.value) && IsCeilBlend(DecodeColor(r.value), v.x / 100.0, ParseRgb(codes.normalMin), ParseRgb(codes.normalMax))
  {
    match c.coloring
    case Uncolored => None
    case FromPalette(name) => Some(Palette.GetLegendColorFromPalette(PaletteOf(ps, name), c.vizParameter, v))
    case Banded(s) => Some(Threshold.MapColor(s, v, enabled))
    case Gradient => Some(GetColorForContinuous(codes.normalMin, codes.normalMax, v))
  }

  /** `getLegendColor`: the swatch of a discrete legend key; None for maps that set
      no swatch function. A palette map's swatch is the colour of the first entry
      whose field holds the key; on the position and NOTA maps a band's swatch is its
      band colour. */
  function LegendColorFor(c: MapConfig, ps: Palettes, d: string): (r: Option<string>)
    ensures r.Some? <==> c.coloring.FromPalette? || c.coloring.Banded?
    ensures c.coloring.Banded? && d !in Threshold.Keys(c.coloring.scale) ==> r == Some(Threshold.SwatchFallback)
    ensures c.coloring.FromPalette? ==> r.value == DefaultColor || exists i :: 0 <= i < |PaletteOf(ps, c.coloring.palette)| && r.value == PaletteOf(ps, c.coloring.palette)[i].color
    ensures c.coloring.FromPalette? ==>
              var p := PaletteOf(ps, c.coloring.palette);
              && (forall i :: 0 <= i < |p| && Palette.FirstMatch(p, c.vizParameter, Text(d), i) ==> r == Some(p[i].color))
              && ((forall i :: 0 <= i < |p| ==> !Palette.Matches(p[i], c.vizParameter, Text(d))) ==> r == Some(DefaultColor))
    ensures c.coloring.Banded? && c.coloring.scale != Threshold.CandidateCount && d in Threshold.Keys(c.coloring.scale) ==>
              r == Some(Threshold.BandColor(c.coloring.scale, d))
  {
    match c.coloring
    case FromPalette(name) => Some(Palette.GetLegendColorFromPalette(PaletteOf(ps, name), c.vizParameter, Text(d)))
    case Banded(s) => Some(Threshold.LegendColor(s, d))
    case _ => None
  }

  /** On a palette map the swatch of a legend key is the colour of the records
      holding that value. */
  lemma PaletteSwatchAgrees(c: MapConfig, ps: Palettes, codes: ColorCodes, enabled: set<string>, k: string)
    requires ValidCodes(codes) && c.coloring.FromPalette?
    ensures LegendColorFor(c, ps, k) == MapColorFor(c, ps, codes, enabled, Text(k))
  {
  }

  /** On the party-position and NOTA maps the swatch of a band is the colour of the
      records counted in it. */
  lemma BandSwatchAgrees(c: MapConfig, ps: Palettes, codes: ColorCodes, enabled: set<string>, v: Value)
    requires ValidCodes(codes) && c.coloring.Banded? && c.coloring.scale != Threshold.CandidateCount
    requires IsNumeric(v) && Truthy(v) && Threshold.EnabledBand(c.coloring.scale, v.x, enabled).Some?
    ensures LegendColorFor(c, ps, Threshold.EnabledBand(c.coloring.scale, v.x, enabled).value) == MapColorFor(c, ps, codes, enabled, v)
  {
    Threshold.SwatchMatchesMap(c.coloring.scale, v, enabled);
  }

  /** On the candidate-count map the swatches of the two upper bands are each
      other's map colours. */
  lemma CandidateSwatchesDisagree(ps: Palettes, codes: ColorCodes)
    requires ValidCodes(codes)
    ensures var c := MapConfigFor("numCandidatesMap");
      && MapColorFor(c, ps, codes, {">15"}, Num(20.0)) != LegendColorFor(c, ps, ">15")
      && MapColorFor(c, ps, codes, {"5-15"}, Num(7.0)) != LegendColorFor(c, ps, "5-15")
  {
    Threshold.CandidateSwatchesSwapped();
  }

  /** What the map branch passes to the map component. */
  datatype MapView = MapView(
    vizParameter: string,
    legendType: LegendType,
    legend: Legend,
    minViz: ChangeMap.Extended,
    maxViz: ChangeMap.Extended,
    colors: Option<seq<string>>)

  /** What the data must hold for the map branch to read it: the shown field of a
      palette map as strings or missing values, the shown field of a banded map as
      numbers, that of a gradient map as numbers when the normal view is drawn, and
      the change field as numbers when the change view is drawn. */
  predicate Readable(c: MapConfig, data: seq<Record>, showChangeMap: bool) {
    var col := Column(data, c.vizParameter);
    && (c.coloring.FromPalette? ==> Categorical.CategoricalColumn(col))
    && (c.coloring.Banded? ==> NumericColumn(col))
    && (c.coloring.Gradient? && !showChangeMap ==> NumericColumn(col))
    && (showChangeMap ==> NumericColumn(Column(data, c.vizChangeParameter)))
  }

  /** The discrete legend of a map: palette maps rank their values by count, banded
      maps count their bands in a fixed order, continuous maps have none. */
  function DiscreteLegend(c: MapConfig, data: seq<Record>, enabled: set<string>): (r: Result<Legend>)
    requires c.coloring.FromPalette? ==> Categorical.CategoricalColumn(Column(data, c.vizParameter))
    requires c.coloring.Banded? ==> NumericColumn(Column(data, c.vizParameter))
    ensures r.TypeError? <==> (c.coloring.FromPalette? &&
              exists i :: 0 <= i < |data| && (Get(data[i], c.vizParameter).Undefined? || Get(data[i], c.vizParameter).Null?))
    ensures r.Ok? && (c.coloring.Gradient? || c.coloring.Uncolored?) ==> r.value == []
    ensures r.Ok? && c.coloring.FromPalette? ==>
              var col := Column(data, c.vizParameter);
              && Categorical.AllText(col)
              && Categorical.CategoricalLegend(col, enabled, r.value)
              && Categorical.TiesByFirstOccurrence(col, r.value)
    ensures r.Ok? && c.coloring.Banded? ==>
              && r.value == Threshold.ThresholdLegend(c.coloring.scale, Column(data, c.vizParameter), enabled)
              && IsSubsequence(KeysOf(r.value), Threshold.Keys(c.coloring.scale))
              && (forall i :: 0 <= i < |r.value| ==>
                    r.value[i].1 == Threshold.CountBand(c.coloring.scale, Column(data, c.vizParameter), enabled, r.value[i].0))
    ensures r.Ok? ==> Distinct(KeysOf(r.value))
    ensures r.Ok? ==> forall i :: 0 <= i < |r.value| ==> r.value[i].0 in enabled && r.value[i].1 > 0
  {
    var col := Column(data, c.vizParameter);
    match c.coloring
    case FromPalette(_) =>
      assert (exists i :: 0 <= i < |col| && (col[i].Undefined? || col[i].Null?)) <==>
             (exists i :: 0 <= i < |data| && (Get(data[i], c.vizParameter).Undefined? || Get(data[i], c.vizParameter).Null?));
      Categorical.GetSortedLegendFromValue(col, enabled)
    case Banded(s) =>
      Threshold.ThresholdLegendFacts(s, col, enabled);
      Ok(Threshold.ThresholdLegend(s, col, enabled))
    case _ => Ok([])
  }

  /** The map branch. The legend is built in both views, so a palette map over a
      missing value throws in either. The normal view shows the field on a 0-100
      scale with the entry's colour function; the change view shows the change
      field between its scanned extremes with the diverging change colours. */
  method RenderMap(visualization: string, data: seq<Record>, enabled: set<string>, ps: Palettes, codes: ColorCodes, showChangeMap: bool)
      returns (r: Result<MapView>)
    requires ValidCodes(codes)
    requires Readable(MapConfigFor(visualization), data, showChangeMap)
    ensures var c := MapConfigFor(visualization);
      r.TypeError? <==> (c.coloring.FromPalette? &&
        exists i :: 0 <= i < |data| && (Get(data[i], c.vizParameter).Undefined? || Get(data[i], c.vizParameter).Null?))
    ensures r.Ok? ==> var c := MapConfigFor(visualization);
      && r.value.legendType == c.legendType
      && r.value.legend == DiscreteLegend(c, data, enabled).value
      && r.value.vizParameter == (if showChangeMap then c.vizChangeParameter else c.vizParameter)
    ensures r.Ok? && !showChangeMap ==> var c := MapConfigFor(visualization);
      && r.value.minViz == ChangeMap.Finite(0.0) && r.value.maxViz == ChangeMap.Finite(100.0)
      && (r.value.colors.Some? <==> !c.coloring.Uncolored?)
      && (r.value.colors.Some? ==>
            && |r.value.colors.value| == |data|
            && (forall i :: 0 <= i < |data| ==>
                  && Colorable(c, Get(data[i], c.vizParameter))
                  && Some(r.value.colors.value[i]) == MapColorFor(c, ps, codes, enabled, Get(data[i], c.vizParameter))))
    ensures r.Ok? && showChangeMap ==> var col := Column(data, MapConfigFor(visualization).vizChangeParameter);
      && ChangeMap.Spans(col, r.value.minViz, r.value.maxViz)
      && (!ChangeMap.HasNumber(col) <==> r.value.maxViz == ChangeMap.NegInf && r.value.minViz == ChangeMap.PosInf)
      && r.value.colors.Some? && |r.value.colors.value| == |data|
      && (forall i :: 0 <= i < |data| ==>
            && IsNumeric(col[i])
            && ChangeMap.ChangeColorOk(col, i, r.value.minViz, r.value.maxViz, r.value.colors.value[i], codes.changeMin, codes.changeMax)
            && (Truthy(col[i]) ==> r.value.minViz.Finite? && r.value.maxViz.Finite? && r.value.minViz.x <= col[i].x <= r.value.maxViz.x)
            && r.value.colors.value[i] == ChangeMap.NormalizedColor(r.value.minViz, r.value.maxViz, codes.changeMin, codes.changeMax, col[i]))
  {
    var c := MapConfigFor(visualization);
    var legend := DiscreteLegend(c, data, enabled);
    if legend.TypeError? {
      return TypeError;
    }
    if showChangeMap {
      var lo, hi, colors := ChangeMap.ChangeMapColors(Column(data, c.vizChangeParameter), codes.changeMin, codes.changeMax);
      return Ok(MapView(c.vizChangeParameter, c.legendType, legend.value, lo, hi, Some(colors)));
    }
    var colors: Option<seq<string>> := None;
    if !c.coloring.Uncolored? {
      var col := Column(data, c.vizParameter);
      assert forall i :: 0 <= i < |data| ==> col[i] == Get(data[i], c.vizParameter);
      colors := Some(seq(|data|, i requires 0 <= i < |data| => MapColorFor(c, ps, codes, enabled, col[i]).value));
    }
    return Ok(MapView(c.vizParameter, c.legendType, legend.value, ChangeMap.Finite(0.0), ChangeMap.Finite(100.0), colors));
  }
}

=== FILE: palette.dfy ===
/** `getLegendColorFromPalette` (DataVizWrapper.js lines 70-81): a linear scan of
    a colour palette for the first entry whose named field equals the value. */
module Palette {
  import opened Values
  import Color

  /** One palette entry: its string fields (e.g. "Party": "BJP") and its `Color`. */
  datatype Entry = Entry(fields: map<string, string>, color: string)

  /** `element[field] === d`: a present field matches the same string; an absent
      field reads as `undefined` and matches only an absent value. */
  predicate Matches(e: Entry, field: string, d: Value) {
    if field in e.fields then d == Text(e.fields[field]) else d == Undefined
  }

  /** Entry `i` matches and no earlier entry does. */
  predicate FirstMatch(palette: seq<Entry>, field: string, d: Value, i: nat)
    requires i < |palette|
  {
    Matches(palette[i], field, d) && forall j :: 0 <= j < i ==> !Matches(palette[j], field, d)
  }

  /** The colour of the first matching entry, or the transparent default. */
  function GetLegendColorFromPalette(palette: seq<Entry>, field: string, d: Value): (c: string)
    ensures (forall i :: 0 <= i < |palette| ==> !Matches(palette[i], field, d)) ==> c == Color.DefaultColor
    ensures forall i :: 0 <= i < |palette| && FirstMatch(palette, field, d, i) ==> c == palette[i].color
    ensures c == Color.DefaultColor || exists i :: 0 <= i < |palette| && c == palette[i].color
    decreases |palette|
  {
    if |palette| == 0 then Color.DefaultColor
    else if Matches(palette[0], field, d) then palette[0].color
    else
      var c := GetLegendColorFromPalette(palette[1..], field, d);
      assert forall i :: 1 <= i < |palette| ==> palette[i] == palette[1..][i - 1];
      c
  }

  /** An entry appended after a match is never consulted: later duplicates are shadowed. */
  lemma {:induction false} LaterEntriesShadowed(palette: seq<Entry>, more: seq<Entry>, field: string, d: Value, i: nat)
    requires i < |palette| && Matches(palette[i], field, d)
    ensures GetLegendColorFromPalette(palette + more, field, d) == GetLegendColorFromPalette(palette, field, d)
    decreases |palette|
  {
    if !Matches(palette[0], field, d) {
      assert (palette + more)[1..] == palette[1..] + more;
      LaterEntriesShadowed(palette[1..], more, field, d, i - 1);
    }
  }
}

=== FILE: threshold.dfy ===
/** The threshold maps of DataVizWrapper.js: number of candidates (lines 144-186),
    party positions (lines 245-293) and NOTA vote share (lines 314-362). Each has a
    map colour function, a legend counted over the data in a fixed key order, and a
    legend swatch function. The source's if-chains are written here as they stand;
    `Band` is an independent interval classification they are proved to agree with. */
module Threshold {
  import opened Values
  import opened Legends
  import Color

  datatype Scale = CandidateCount | PartyPosition | NotaShare

  /** The canonical legend order (`SortedKeys`). */
  function Keys(s: Scale): (ks: seq<string>)
    ensures Distinct(ks)
  {
    match s
    case CandidateCount => ["<5", "5-15", ">15"]
    case PartyPosition => ["1", "2", "3", ">3"]
    case NotaShare => ["<1%", "1%-3%", "3%-5%", ">5%"]
  }

  /** The band a number belongs to, read off the intervals: candidate counts
      below 5, 5 to 15 inclusive, above 15; positions 1, 2, 3 and above 3 (other
      numbers have no band); NOTA shares below 1, [1, 3), [3, 5], above 5. */
  function Band(s: Scale, x: real): (b: Option<string>)
    ensures b.Some? ==> b.value in Keys(s)
    ensures s != PartyPosition ==> b.Some?
    ensures s == PartyPosition ==> (b.Some? <==> x == 1.0 || x == 2.0 || x == 3.0 || x > 3.0)
  {
    match s
    case CandidateCount =>
      Some(if x < 5.0 then "<5" else if x <= 15.0 then "5-15" else ">15")
    case PartyPosition =>
      if x == 1.0 then Some("1")
      else if x == 2.0 then Some("2")
      else if x == 3.0 then Some("3")
      else if x > 3.0 then Some(">3")
      else None
    case NotaShare =>
      Some(if x < 1.0 then "<1%" else if x < 3.0 then "1%-3%" else if x <= 5.0 then "3%-5%" else ">5%")
  }

  /** The band of `x` when that band is switched on in the legend filter. */
  function EnabledBand(s: Scale, x: real, enabled: set<string>): Option<string> {
    var b := Band(s, x);
    if b.Some? && b.value in enabled then b else None
  }

  predicate Lt(n: Option<real>, c: real) { n.Some? && n.value < c }
  predicate Gt(n: Option<real>, c: real) { n.Some? && n.value > c }
  predicate Within(n: Option<real>, lo: real, hi: real) { n.Some? && lo <= n.value <= hi }
  predicate Below(n: Option<real>, lo: real, hi: real) { n.Some? && lo <= n.value < hi }

  /** The band the legend loop increments for one value, or None; branches in
      source order, with no falsy guard. It is exactly the enabled band of the
      value's number (`null` counting as 0, `undefined` as no number). */
  function LegendBand(s: Scale, v: Value, enabled: set<string>): (b: Option<string>)
    requires IsNumeric(v)
    ensures b == (if ToNumber(v).Some? then EnabledBand(s, ToNumber(v).value, enabled) else None)
  {
    var n := ToNumber(v);
    match s
    case CandidateCount =>
      if Lt(n, 5.0) && "<5" in enabled then Some("<5")
      else if Gt(n, 15.0) && ">15" in enabled then Some(">15")
      else if Within(n, 5.0, 15.0) && "5-15" in enabled then Some("5-15")
      else None
    case PartyPosition =>
      if v == Num(1.0) && "1" in enabled then Some("1")
      else if v == Num(2.0) && "2" in enabled then Some("2")
      else if v == Num(3.0) && "3" in enabled then Some("3")
      else if Gt(n, 3.0) && ">3" in enabled then Some(">3")
      else None
    case NotaShare =>
      if Gt(n, 5.0) && ">5%" in enabled then Some(">5%")
      else if Lt(n, 1.0) && "<1%" in enabled then Some("<1%")
      else if Within(n, 3.0, 5.0) && "3%-5%" in enabled then Some("3%-5%")
      else if Below(n, 1.0, 3.0) && "1%-3%" in enabled then Some("1%-3%")
      else None
  }

  /** The colour the map function returns for a record of an enabled band. */
  function BandColor(s: Scale, k: string): string
    requires k in Keys(s)
  {
    match s
    case CandidateCount =>
      if k == "<5" then "#deebf7" else if k == ">15" then "#6baed6" else "#08306b"
    case PartyPosition =>
      if k == "1" then "#0570b0" else if k == "2" then "#74a9cf" else if k == "3" then "#bdc9e1" else "#f1eef6"
    case NotaShare =>
      if k == ">5%" then "#0570b0" else if k == "3%-5%" then "#74a9cf" else if k == "1%-3%" then "#bdc9e1" else "#f1eef6"
  }

  /** `getMapColor`: falsy values and values of a disabled band are transparent;
      any other value gets its band's colour. */
  function MapColor(s: Scale, v: Value, enabled: set<string>): (c: string)
    requires IsNumeric(v)
    ensures Falsy(v) ==> c == Color.DefaultColor
    ensures Truthy(v) ==> c == (match EnabledBand(s, v.x, enabled)
                                case Some(k) => BandColor(s, k)
                                case None => Color.DefaultColor)
  {
    var n := ToNumber(v);
    if Falsy(v) then Color.DefaultColor
    else
      match s
      case CandidateCount =>
        if Lt(n, 5.0) && "<5" in enabled then "#deebf7"
        else if Gt(n, 15.0) && ">15" in enabled then "#6baed6"
        else if Within(n, 5.0, 15.0) && "5-15" in enabled then "#08306b"
        else Color.DefaultColor
      case PartyPosition =>
        if v == Num(1.0) && "1" in enabled then "#0570b0"
        else if v == Num(2.0) && "2" in enabled then "#74a9cf"
        else if v == Num(3.0) && "3" in enabled then "#bdc9e1"
        else if Gt(n, 3.0) && ">3" in enabled then "#f1eef6"
        else Color.DefaultColor
      case NotaShare =>
        if Gt(n, 5.0) && ">5%" in enabled then "#0570b0"
        else if Within(n, 3.0, 5.0) && "3%-5%" in enabled then "#74a9cf"
        else if Below(n, 1.0, 3.0) && "1%-3%" in enabled then "#bdc9e1"
        else if Lt(n, 1.0) && "<1%" in enabled then "#f1eef6"
        else Color.DefaultColor
  }

  /** Fallback of the swatch functions; the source writes it without the '#'. */
  const SwatchFallback: string := "FFFFFF00"

  /** `getLegendColor`: the swatch colour of a legend key, as written. */
  function LegendColor(s: Scale, d: string): (c: string)
    ensures d !in Keys(s) ==> c == SwatchFallback
  {
    match s
    case CandidateCount =>
      if d == "<5" then "#deebf7"
      else if d == "5-15" then "#6baed6"
      else if d == ">15" then "#08306b"
      else SwatchFallback
    case PartyPosition =>
      if d == "1" then "#0570b0"
      else if d == "2" then "#74a9cf"
      else if d == "3" then "#bdc9e1"
      else if d == ">3" then "#f1eef6"
      else SwatchFallback
    case NotaShare =>
      if d == "<1%" then "#f1eef6"
      else if d == "1%-3%" then "#bdc9e1"
      else if d == "3%-5%" then "#74a9cf"
      else if d == ">5%" then "#0570b0"
      else SwatchFallback
  }

  /** Number of records the legend loop counts in band `k`. */
  function CountBand(s: Scale, vals: seq<Value>, enabled: set<string>, k: string): nat
    requires NumericColumn(vals)
  {
    if |vals| == 0 then 0
    else (if LegendBand(s, vals[0], enabled) == Some(k) then 1 else 0) + CountBand(s, vals[1..], enabled, k)
  }

  /** Number of records the legend loop counts in any band. */
  function BinnedCount(s: Scale, vals: seq<Value>, enabled: set<string>): nat
    requires NumericColumn(vals)
  {
    if |vals| == 0 then 0
    else (if LegendBand(s, vals[0], enabled).Some? then 1 else 0) + BinnedCount(s, vals[1..], enabled)
  }

  /** The legend loop: one pass over the data, bumping the band each value falls in. */
  function BandCounts(s: Scale, vals: seq<Value>, enabled: set<string>): map<string, nat>
    requires NumericColumn(vals)
    decreases |vals|
  {
    if |vals| == 0 then map[]
    else
      var counts := BandCounts(s, vals[..|vals| - 1], enabled);
      match LegendBand(s, vals[|vals| - 1], enabled)
      case Some(k) => Bump(counts, k)
      case None => counts
  }

  /** The discrete legend: canonical keys whose count is non-zero. */
  function ThresholdLegend(s: Scale, vals: seq<Value>, enabled: set<string>): Legend
    requires NumericColumn(vals)
  {
    Emit(Keys(s), BandCounts(s, vals, enabled))
  }

  lemma {:induction false} CountSnoc(s: Scale, vals: seq<Value>, v: Value, enabled: set<string>)
    requires NumericColumn(vals) && IsNumeric(v)
    ensures NumericColumn(vals + [v])
    ensures forall k ::
      CountBand(s, vals + [v], enabled, k) ==
        CountBand(s, vals, enabled, k) + (if LegendBand(s, v, enabled) == Some(k) then 1 else 0)
    ensures BinnedCount(s, vals + [v], enabled) ==
      BinnedCount(s, vals, enabled) + (if LegendBand(s, v, enabled).Some? then 1 else 0)
    decreases |vals|
  {
    if |vals| > 0 {
      assert (vals + [v])[1..] == vals[1..] + [v];
      CountSnoc(s, vals[1..], v, enabled);
    }
  }

  /** The counting object holds each band's count. */
  lemma {:induction false} BandCountsLookup(s: Scale, vals: seq<Value>, enabled: set<string>)
    requires NumericColumn(vals)
    ensures forall k :: Lookup(BandCounts(s, vals, enabled), k) == CountBand(s, vals, enabled, k)
    decreases |vals|
  {
    if |vals| > 0 {
      var n := |vals| - 1;
      BandCountsLookup(s, vals[..n], enabled);
      assert vals == vals[..n] + [vals[n]];
      CountSnoc(s, vals[..n], vals[n], enabled);
    }
  }

  /** The counts over the canonical keys add up to the number of records counted. */
  lemma {:induction false} BandCountsSum(s: Scale, vals: seq<Value>, enabled: set<string>)
    requires NumericColumn(vals)
    ensures SumOver(Keys(s), BandCounts(s, vals, enabled)) == BinnedCount(s, vals, enabled)
    decreases |vals|
  {
    if |vals| == 0 {
      SumOverEmpty(Keys(s));
    } else {
      var n := |vals| - 1;
      var prev := BandCounts(s, vals[..n], enabled);
      BandCountsSum(s, vals[..n], enabled);
      assert vals == vals[..n] + [vals[n]];
      CountSnoc(s, vals[..n], vals[n], enabled);
      var b := LegendBand(s, vals[n], enabled);
      if b.Some? {
        assert b.value in Keys(s);
        assert BandCounts(s, vals, enabled) == Bump(prev, b.value);
        SumOverBump(Keys(s), prev, b.value);
      } else {
        assert BandCounts(s, vals, enabled) == prev;
      }
    }
  }

  /** A band's count is positive only if the band is enabled. */
  lemma {:induction false} CountOnlyEnabled(s: Scale, vals: seq<Value>, enabled: set<string>, k: string)
    requires NumericColumn(vals)
    requires CountBand(s, vals, enabled, k) > 0
    ensures k in enabled && k in Keys(s)
    decreases |vals|
  {
    if LegendBand(s, vals[0], enabled) != Some(k) {
      CountOnlyEnabled(s, vals[1..], enabled, k);
    }
  }

  /** The threshold legend lists canonical keys in canonical order, each enabled
      with its exact non-zero count, every band with records appears, and the
      counts sum to the number of records counted, which never exceeds the data. */
  lemma ThresholdLegendFacts(s: Scale, vals: seq<Value>, enabled: set<string>)
    requires NumericColumn(vals)
    ensures var l := ThresholdLegend(s, vals, enabled);
      && IsSubsequence(KeysOf(l), Keys(s))
      && Distinct(KeysOf(l))
      && (forall i :: 0 <= i < |l| ==>
            l[i].0 in enabled && l[i].1 == CountBand(s, vals, enabled, l[i].0) > 0)
      && (forall k :: k in Keys(s) && CountBand(s, vals, enabled, k) > 0 ==> k in KeysOf(l))
      && Total(l) == BinnedCount(s, vals, enabled) <= |vals|
  {
    var l := ThresholdLegend(s, vals, enabled);
    BandCountsLookup(s, vals, enabled);
    BandCountsSum(s, vals, enabled);
    EmitDistinct(Keys(s), BandCounts(s, vals, enabled));
    BinnedAtMost(s, vals, enabled);
    forall i | 0 <= i < |l|
      ensures l[i].0 in enabled
    {
      CountOnlyEnabled(s, vals, enabled, l[i].0);
    }
  }

  lemma {:induction false} BinnedAtMost(s: Scale, vals: seq<Value>, enabled: set<string>)
    requires NumericColumn(vals)
    ensures BinnedCount(s, vals, enabled) <= |vals|
    decreases |vals|
  {
    if |vals| > 0 {
      BinnedAtMost(s, vals[1..], enabled);
    }
  }

  /** For party positions and NOTA shares the swatch of a band is the colour the map
      gives its records. */
  lemma SwatchMatchesMap(s: Scale, v: Value, enabled: set<string>)
    requires s != CandidateCount
    requires Truthy(v) && IsNumeric(v) && EnabledBand(s, v.x, enabled).Some?
    ensures MapColor(s, v, enabled) == LegendColor(s, EnabledBand(s, v.x, enabled).value)
  {
  }

  /** For candidate counts the swatches of "5-15" and ">15" are swapped relative to
      the map: 20 candidates are drawn in one blue, listed under another. */
  lemma CandidateSwatchesSwapped()
    ensures MapColor(CandidateCount, Num(20.0), {">15"}) == "#6baed6"
    ensures LegendColor(CandidateCount, ">15") == "#08306b"
    ensures MapColor(CandidateCount, Num(7.0), {"5-15"}) == "#08306b"
    ensures LegendColor(CandidateCount, "5-15") == "#6baed6"
    ensures LegendColor(CandidateCount, "<5") == MapColor(CandidateCount, Num(3.0), {"<5"})
  {
  }

  /** Without a falsy guard in the legend loops, 0 and `null` are counted in the
      lowest band though the map draws them transparent. */
  lemma ZeroCountedButTransparent(s: Scale, v: Value, enabled: set<string>)
    requires s != PartyPosition && (v == Num(0.0) || v == Null)
    requires Keys(s)[0] in enabled
    ensures LegendBand(s, v, enabled) == Some(Keys(s)[0])
    ensures MapColor(s, v, enabled) == Color.DefaultColor
  {
  }

  /** Candidate counts 3, 7, 20 and 20 with "5-15" disabled: the legend lists "<5"
      once and ">15" twice, and the record with 7 candidates is drawn transparent. */
  lemma CandidateCountExample()
    ensures ThresholdLegend(CandidateCount, [Num(3.0), Num(7.0), Num(20.0), Num(20.0)], {"<5", ">15"})
            == [("<5", 1), (">15", 2)]
    ensures MapColor(CandidateCount, Num(7.0), {"<5", ">15"}) == Color.DefaultColor
  {
    var vals := [Num(3.0), Num(7.0), Num(20.0), Num(20.0)];
    var enabled := {"<5", ">15"};
    var s := CandidateCount;
    assert vals[..3] == [Num(3.0), Num(7.0), Num(20.0)];
    assert vals[..3][..2] == [Num(3.0), Num(7.0)];
    assert vals[..3][..2][..1] == [Num(3.0)];
    assert BandCounts(s, [Num(3.0)], enabled) == map["<5" := 1];
    assert BandCounts(s, [Num(3.0), Num(7.0)], enabled) == map["<5" := 1];
    assert BandCounts(s, vals[..3], enabled) == map["<5" := 1, ">15" := 1];
    var counts := BandCounts(s, vals, enabled);
    assert counts == map["<5" := 1, ">15" := 2];
    assert Emit(["<5", "5-15", ">15"], counts) == [("<5", 1), (">15", 2)] by {
      assert ["<5", "5-15", ">15"][1..] == ["5-15", ">15"];
      assert ["5-15", ">15"][1..] == [">15"];
    }
  }
}

=== FILE: values.dfy ===
/** Record field values as the JavaScript source sees them, and the coercions the
    source applies to them: truthiness, `ToNumber` in comparisons and `parseFloat`. */
module Values {

  /** A field value: absent (`undefined`), JSON `null`, a number or a string. */
  datatype Value = Undefined | Null | Num(x: real) | Text(s: string)

  /** One row of election-result data. */
  type Record = map<string, Value>

  /** `record[field]`: an absent field reads as `undefined`. */
  function Get(rec: Record, field: string): (v: Value)
    ensures field !in rec ==> v == Undefined
  {
    if field in rec then rec[field] else Undefined
  }

  /** The values one field takes across the records, in record order. */
  function Column(data: seq<Record>, field: string): (col: seq<Value>)
    ensures |col| == |data|
    ensures forall i :: 0 <= i < |data| ==> col[i] == Get(data[i], field)
  {
    seq(|data|, i requires 0 <= i < |data| => Get(data[i], field))
  }

  /** JavaScript falsiness (NaN is not representable here). */
  predicate Falsy(v: Value) {
    v.Undefined? || v.Null? || v == Num(0.0) || v == Text("")
  }

  predicate Truthy(v: Value) {
    !Falsy(v)
  }

  /** A value a numeric column may hold: a number, `null` or nothing. */
  predicate IsNumeric(v: Value) {
    !v.Text?
  }

  predicate NumericColumn(col: seq<Value>) {
    forall i :: 0 <= i < |col| ==> IsNumeric(col[i])
  }

  /** The number a relational comparison such as `val < 5` sees: `null` is 0 and
      `undefined` is NaN (None), against which every comparison is false. */
  function ToNumber(v: Value): (n: Option<real>)
    requires IsNumeric(v)
    ensures v.Num? ==> n == Some(v.x)
    ensures v.Null? ==> n == Some(0.0)
    ensures v.Undefined? <==> n.None?
  {
    match v
    case Undefined => None
    case Null => Some(0.0)
    case Num(x) => Some(x)
  }

  /** `parseFloat(val)`: a number parses to itself; `null` and `undefined` go
      through the strings "null" and "undefined" and give NaN (None). */
  function ParseFloat(v: Value): (n: Option<real>)
    requires IsNumeric(v)
    ensures n.Some? <==> v.Num?
    ensures v.Num? ==> n.value == v.x
  {
    if v.Num? then Some(v.x) else None
  }

  datatype Option<+T> = None | Some(value: T)

  /** The outcome of a call that may throw, as `toString` on a missing value does. */
  datatype Result<+T> = Ok(value: T) | TypeError
}
